=== FILE: README.md ===
# Study reminder scheduling, question progress and phone entry — a Dafny model

The system is a study helper. Its server reads a user's calendar for a week,
works out the free time between events, and spreads a number of study
reminders evenly over that free time. Each reminder reserves a block of
minutes, which is then cut out of the free time. A message bot sends
generated study questions over iMessage one at a time, records answers and
moves on to the next unanswered question. A sign-up screen formats,
validates and normalises the user's phone number.

This project models those three pieces of pure logic and proves what they
promise:

- `intervals.dfy` (module `Intervals`): time intervals over integer
  millisecond instants, read as half-open ranges `[start, end)`. It holds the
  five-minute filter, the stable sort by start, `subtractOne`, and
  `mergeIntervals`.
- `free_time.dfy` (module `FreeTime`): `getFreeTimeFrames`.
- `scheduler.dfy` (module `Scheduler`): `scheduleEventsEvenly`, a method with
  the program's two nested loops. The step `totalFreeMs / numEvents` is an
  exact `real`, and `new Date(x)` on a fractional millisecond count is
  truncation toward zero (`TruncMs`).
- `reservation.dfy` (module `Reservation`): `removeScheduledBlocks` and
  `scheduleAndReserve`.
- `course_progress.dfy` (module `CourseProgress`): the bot's course records.
  This covers the first-question send, `findPendingQuestion`, answer
  recording, `sendNextQuestion` with its skip-answered recursion, the
  next-question request, and the demo-number sender test. The question store
  (a JSON object) is a sequence of `(courseId, course)` entries in key order.
  Whether a message was delivered is an input.
- `phone.dfy` (module `PhoneNumber`): `formatPhoneNumber`,
  `validatePhoneNumber`, and the submit handler's checks and normalisation.
- `text.dfy` (module `Text`): the digit filter `replace(/\D/g, '')` and
  `includes`.
- `wrappers.dfy` (module `Wrappers`): `Option` and `Result`.

One would expect the free times to be filtered to at least five minutes and
to lie inside the window (an inverted window giving nothing), and the
scheduled instants to lie strictly inside a free interval. The code does
otherwise in three places, and the model follows the code:

- With no events, `getFreeTimeFrames` returns `[[startDate, finalDate]]`
  without the five-minute filter (server.js:346). So a window shorter than
  five minutes, or an inverted one, comes back as it is.
- The free frames are not clipped to the window. The running busy end only
  moves forward (`e > endTime`, server.js:359). When an event ending before
  `startDate` has the latest end seen so far, the next gap starts at that
  end, before the window (server.js:355-362,
  `FreeTime.EventBeforeWindowLeaks`). A gap ends after `finalDate` only when
  it precedes an event that starts after both `finalDate` and the running
  busy end. (An event that merely starts before the window only yields a
  first frame of negative length, which the filter drops.) Containment in the
  window is therefore proved only for events that touch the window, which is
  what the calendar query returns.
- A scheduled instant can equal the end of a free interval. When a target
  offset lands exactly on an interval's cumulative end, the inner loop stops
  there (`<`, server.js:384). Instants are therefore within a free interval
  with end points included, not strictly inside one (see
  `Scheduler.SecondOfTwoAtFirstEnd`).

## Model

| member | source | states |
|---|---|---|
| Intervals.KeepLong | server.js:364-365 | keeps exactly the input intervals that are at least five minutes long (`e - s >= 300000`), and never adds one |
| Intervals.KeepLongOrdered | server.js:460-462 | filtering a list in free-time order (strict or not) keeps that order |
| Intervals.SortByStart | server.js:348 | the sort is a permutation of the events (same multiset, same length), ordered by start |
| Intervals.SortSortedIsIdentity | server.js:432 | sorting a list already sorted by start changes nothing (the sort is stable) |
| Intervals.SubtractOne | server.js:405-427 | at most two pieces; no overlap gives the interval back; full cover of a non-empty interval gives nothing; each piece lies inside the interval and is disjoint from the block; the pieces cover exactly the interval's instants outside the block |
| Intervals.SubtractAll | server.js:452-456 | subtracting a block from every interval covers exactly the instants of the list outside the block, and keeps start <= end |
| Intervals.Coalesce | server.js:433-442 | the merge fold yields a list sorted by start with no two consecutive intervals touching, covering exactly the running interval plus the rest |
| Intervals.MergeIntervals | server.js:430-444 | empty in, empty out; never longer than the input; sorted, consecutive intervals strictly apart; covers exactly the instants the input covers |
| Intervals.CoalesceSeparated | server.js:437-441 | a list whose consecutive intervals are already strictly apart passes through the fold unchanged |
| Intervals.MergeIdempotent | server.js:430-444 | merging a merged list gives the same list |
| FreeTime.GetFreeTimeFrames | server.js:345-366 | no events gives the whole window unfiltered; otherwise every returned frame is at least five minutes long |
| FreeTime.FreeFramesOrdered | server.js:348-362 | with well-formed events the frames are in time order; with events of positive length no two frames touch |
| FreeTime.FreeFramesAvoidEvents | server.js:352-362 | no free frame overlaps any busy event, whether the events overlap, nest or come unsorted |
| FreeTime.FreeFramesComplement | server.js:350-365 | an instant of the window that no event covers lies in a returned frame or in a gap dropped by the five-minute filter |
| FreeTime.FreeFramesKeepLongFreeRuns | server.js:346-365 | the converse of `FreeFramesAvoidEvents`: with events of positive length, a run of at least five minutes inside the window that no event touches is covered by the returned frames |
| FreeTime.EmptyEventCutsFreeTime | server.js:352-365 | an empty event three minutes into the window ends the first gap there and the filter drops those free minutes, so the run lemma needs events of positive length |
| FreeTime.FreeFramesWithinWindow | server.js:352-362 | when every event touches the window, every frame lies inside `[startDate, finalDate]` |
| FreeTime.OneBusyHour | server.js:345-366 | one busy hour in a day leaves exactly the free time before and after it |
| FreeTime.OverlappingEvents | server.js:354-360 | overlapping events are covered by the running latest end, so no gap appears between them |
| FreeTime.ShortGapDropped | server.js:364-365 | a three-minute gap between events is dropped |
| FreeTime.EventBeforeWindowLeaks | server.js:352-365 | an event ending five minutes before the window start yields a frame that starts five minutes before the window: frames are not clipped |
| Scheduler.TruncMs | server.js:393 | the instant is the real offset rounded toward zero: within one millisecond below (or above, for negatives) |
| Scheduler.TargetIsProduct | server.js:380 | the k-th target, built by repeated addition of the step, equals `k * intervalMs` |
| Scheduler.SkipTo | server.js:382-388 | the inner loop stops at the first interval whose cumulative end reaches the target, with `timeAccum` the duration of all intervals before it |
| Scheduler.ScheduleEventsEvenly | server.js:369-398 | nothing for a non-positive count or no free time; never more than `numEvents`; on well-formed intervals exactly `numEvents`, the first at the first interval's start, the k-th at free-time offset `k * total / numEvents`, each inside some interval (end points included), non-decreasing on ordered intervals |
| Scheduler.EvenlyPlacedIsFree | server.js:391-394 | an evenly placed instant lies inside the interval its target falls in |
| Scheduler.EvenlyPlacedInOrder | server.js:379-395 | on ordered intervals a later target never gets an earlier instant |
| Scheduler.SecondOfTwoAtFirstEnd | server.js:382-393 | a target equal to an interval's cumulative end is placed at that interval's end, which no half-open free interval contains |
| Reservation.ApplyBlocks | server.js:447-458 | after subtracting and re-merging for every instant, the list covers exactly the free instants outside every block; with at least one instant it is sorted and no two intervals touch |
| Reservation.RemoveScheduledBlocks | server.js:401-463 | every returned interval is at least five minutes long, whatever the block length; which instants survive is stated by its partners `RemovedKeepsOnlyFreeTime` (only free instants outside every block) and `RemovedKeepsLongFreeRuns` (every such run of five minutes or more) |
| Reservation.RemovedKeepsLongFreeRuns | server.js:446-462 | the converse of `RemovedKeepsOnlyFreeTime`: a run of at least five minutes that is free and meets no reserved block is still covered afterwards (with no block, for strictly ordered free time, which is returned unmerged) |
| Reservation.RemovedKeepsOnlyFreeTime | server.js:446-462 | every instant of a returned interval was free and lies in no reserved block |
| Reservation.RemovedAvoidsBlocks | server.js:448-457 | with blocks of positive length no returned interval overlaps any block |
| Reservation.RemovedOrdered | server.js:457-462 | ordered (or strictly ordered) free time stays so after the blocks are removed |
| Reservation.RemovedWithinOneInterval | server.js:446-462 | on strictly ordered free time each returned interval lies inside a single input interval |
| Reservation.FullyReservedLeavesNothing | server.js:446-462 | when the reserved blocks cover every free instant, no free interval is left |
| Reservation.ScheduleAndReserve | server.js:466-474 | the instants are those of `scheduleEventsEvenly`; the updated free time is exactly `removeScheduledBlocks` of the free time, the instants and the block length, so it is at least five minutes per interval, contains only free instants outside every reserved block, is disjoint from the blocks and stays ordered |
| Reservation.TwoInTenMinutesPlaced | server.js:369-398 | two instants in a ten-minute window are its start and five minutes later |
| Reservation.TwoInTenMinutesReserved | server.js:401-463 | reserving those two five-minute blocks leaves no free time |
| CourseProgress.SendFirst | autoreply-bot.js:116-133 | only a course flagged ready, at index 0 and with questions changes, and only when the send is delivered: index 1 and flag cleared; questions and answers never change |
| CourseProgress.FirstQuestionSentOnce | autoreply-bot.js:127-129 | after a delivered first send the first question is no longer due, and a further pass changes nothing |
| CourseProgress.CheckAndSendQuestions | autoreply-bot.js:109-136 | every course of the store goes through the first-send step independently, in key order |
| CourseProgress.CheckAndSendMessages | autoreply-bot.js:116-123 | as many messages as due courses; every message is some due course's greeting plus first question, and every due course's message is among them |
| CourseProgress.SecondPassSendsNothing | autoreply-bot.js:127-129 | once every first send was delivered, the next poll attempts no message |
| CourseProgress.FindPendingQuestion | autoreply-bot.js:180-204 | nothing iff no course awaits an answer; otherwise the first awaiting course in key order with the question at `index - 1` |
| CourseProgress.RecordAnswer | autoreply-bot.js:225-238 | the store keeps its length and its keys |
| CourseProgress.RecordAnswerEffect | autoreply-bot.js:229-235 | without delivered feedback or without the course nothing changes; otherwise only that course's answered list grows, by the question id |
| CourseProgress.AnswerClearsPending | autoreply-bot.js:189-233 | recording the answer to the pending question means that course no longer awaits an answer, and other courses are untouched |
| CourseProgress.NextUnanswered | autoreply-bot.js:257-273 | reference position: every question skipped was answered, and the one found (if any) is not |
| CourseProgress.SendNext | autoreply-bot.js:257-290 | questions, answers and flag never change; the index never decreases |
| CourseProgress.SendNextMatchesReference | autoreply-bot.js:257-289 | index past the end: unchanged, completion reply; else with `j` the first unanswered position: all answered gives index = end; delivered gives index `j + 1` and that question; a failed send leaves the index at `j` |
| CourseProgress.SendNextSkipsOnlyAnswered | autoreply-bot.js:260-280 | the index moves only past answered questions or the one question just delivered |
| CourseProgress.SendNextQuestion | autoreply-bot.js:248-290 | a missing course changes nothing; otherwise only that course is updated, by the one-course step |
| CourseProgress.FirstWithQuestionsLeft | autoreply-bot.js:336-344 | the first course in key order whose index still points at a question, or none iff there is none |
| CourseProgress.RequestAnotherQuestion | autoreply-bot.js:333-350 | with no course having questions left nothing changes and the reply is the all-answered case; otherwise only the first course in key order with questions left is changed, by the next-question step, and its reply is returned; keys, questions and answers are kept and no index decreases |
| CourseProgress.IndexNeverDecreases | autoreply-bot.js:128-280 | the first send and the next-question step never lower a course's index; answer recording leaves every index unchanged |
| CourseProgress.ThirdTestRedundant | autoreply-bot.js:312-316 | the sender test is equivalent to its first two clauses: the full number contains the national one |
| CourseProgress.ContainingNationalMatches | autoreply-bot.js:315 | any sender containing the ten national digits as one run matches |
| CourseProgress.PunctuatedNationalDoesNotMatch | autoreply-bot.js:312-316 | the sender `(404) 716-5833` matches none of the three tests |
| Text.Digits | src/screens/PhoneNumberScreen.js:17 | the filtered string is all digits and no longer than the input |
| Text.DigitsIdempotent | autoreply-bot.js:312-313 | removing non-digits twice is the same as once |
| PhoneNumber.FormatPhoneNumber | src/screens/PhoneNumberScreen.js:15-29 | empty iff the input has no digit; otherwise starts with `+` |
| PhoneNumber.FormatFillsMask | src/screens/PhoneNumberScreen.js:15-29 | the formatter equals the pattern `+# (###) ###-####` filled with the input's digits up to the last digit, so it depends only on the digits |
| PhoneNumber.FormatKeepsLeadingDigits | src/screens/PhoneNumberScreen.js:17-28 | the digits of the formatted number are the first eleven digits of the input |
| PhoneNumber.FormatIdempotent | src/screens/PhoneNumberScreen.js:15-29 | formatting a formatted number changes nothing |
| PhoneNumber.FormattedValidity | src/screens/PhoneNumberScreen.js:37-42 | a formatted number is valid iff at least ten digits were typed |
| PhoneNumber.Normalize | src/screens/PhoneNumberScreen.js:68-70 | the normalised number starts with `+` |
| PhoneNumber.NormalizeDigits | src/screens/PhoneNumberScreen.js:68-70 | ten digits gain a leading `1`, any other count is kept; the result is `+` followed by its digits |
| PhoneNumber.NormalizedValidHasElevenDigits | src/screens/PhoneNumberScreen.js:53-70 | a valid number normalises to `+` and eleven digits, itself valid |
| PhoneNumber.NormalizeIdempotent | src/screens/PhoneNumberScreen.js:68-70 | normalising twice equals normalising once |
| PhoneNumber.SubmitPhoneNumber | src/screens/PhoneNumberScreen.js:44-77 | accepted iff not blank, valid and logged in; a blank entry gets the blank message, an invalid one the invalid-number message, a valid one without login the log-in message; an accepted number is `+` and eleven digits: `1` and the ten entered digits, or the eleven entered digits |
| PhoneNumber.BlankIsInvalid | src/screens/PhoneNumberScreen.js:48-56 | a blank entry has no digits, so the blank check only chooses the error message |
| PhoneNumber.SubmitFormatted | src/screens/PhoneNumberScreen.js:15-70 | submitting the formatter's output succeeds iff ten or more digits were typed (and logged in), storing `+1` and ten digits or `+` and the first eleven |

## Left out

- Express routes, Google OAuth, the calendar fetch, sqlite, PDF upload, the JSON file store and the React screens are I/O or UI. The store is passed in and returned.
- ISO-8601 strings and `Date` parsing: instants are integer milliseconds, and the round trip through strings is not modelled.
- IEEE-754 doubles: the scheduler's step and targets are exact reals, so `i * intervalMs` carries no rounding. This is why the program's early `break` is provably unreachable on well-formed input.
- Scheduler.ScheduleEventsEvenly: placement, count and order are proved only for intervals with `start <= end`. For inverted intervals only the length bound is stated, because negative durations make the cumulative offsets non-monotone.
- FreeTime.FreeFramesWithinWindow: proved only for events that touch the window. The code does not clip, so events wholly outside the window can yield frames outside it.
- Reservation.RemovedWithinOneInterval: proved only for strictly ordered free time. Touching input intervals are merged into one that spans both.
- Gemini answer evaluation, the iMessage SDK, timers and polling, `SIGINT` shutdown and the `attributedBody` blob decoding are foreign calls or heuristics. Delivery success is an input.
- Default arguments: the block length defaults to five minutes in `removeScheduledBlocks` and `scheduleAndReserve` (server.js:401, :466). The model always takes the length as an argument; the program's only caller passes 2 (server.js:260).
- Overlapping polls: the five-second interval and the twenty-second timeout both run `checkAndSendQuestions` without a guard (autoreply-bot.js:373-384). Two passes can each load the store before either saves it, and then both send the same first question. The model treats passes as running one after the other, so "sent once" holds only for passes that do not overlap. The same unguarded load, await, save sequence is in `sendNextQuestion`: it loads the store (autoreply-bot.js:249), awaits the send (:276), then saves the whole store (:282), so a poll pass that saves in between is overwritten. The model treats each of these steps as atomic.
- `wantsAnotherQuestion` is regular-expression matching. `RequestAnotherQuestion` models only what happens once a request is recognised.
- The feedback text and the completion messages are represented by the `Reply` cases, not by their strings.
- The login check in the submit handler is a boolean input, because `getUserId` reads browser storage. `localStorage` and navigation are left out.

=== FILE: course_progress.dfy ===
/**
  The message bot's question-progress state machine. Each course record in
  the question store holds its questions, the index of the next question to
  send, the ids of the answered questions and a `readyToSend` flag. The bot
  sends the first question of a ready course, finds the question a reply answers,
  records answers, and advances past answered questions when asked for the
  next one. Whether a message could be delivered is an input here.
*/
module CourseProgress {
  import opened Wrappers
  import opened Text

  datatype Question = Question(id: string, text: string)

  datatype Course = Course(
    questions: seq<Question>,
    currentQuestionIndex: nat,
    answeredQuestions: seq<string>,
    readyToSend: bool)

  /** One key of the question store and its record, in key order. */
  datatype Entry = Entry(courseId: string, course: Course)

  /** Keys of a JavaScript object are distinct. */
  predicate UniqueIds(store: seq<Entry>) {
    forall i, j :: 0 <= i < j < |store| ==> store[i].courseId != store[j].courseId
  }

  /** Only the index and the flag may change when a question is sent. */
  predicate SameContent(a: Course, b: Course) {
    a.questions == b.questions && a.answeredQuestions == b.answeredQuestions
  }

  // ---------------------------------------------------------------------------
  // Initial send
  // ---------------------------------------------------------------------------

  /** A course whose first question is due: flagged ready, nothing sent yet, not empty. */
  predicate FirstQuestionDue(c: Course) {
    c.readyToSend && c.currentQuestionIndex == 0 && |c.questions| > 0
  }

  /** The message that carries the first question. */
  function FirstMessage(q: Question): string {
    "Hello! Here are your questions:\n\n" + q.text
  }

  /**
    One course in `checkAndSendQuestions`: when its first question is due and
    the message is delivered, the index moves to 1 and the flag is cleared;
    otherwise the record stays as it was.
  */
  function SendFirst(c: Course, delivered: bool): (r: Course)
    ensures SameContent(r, c)
    ensures r.currentQuestionIndex >= c.currentQuestionIndex
    ensures r != c <==> FirstQuestionDue(c) && delivered
    ensures FirstQuestionDue(c) && delivered ==> r.currentQuestionIndex == 1 && !r.readyToSend
  {
    if FirstQuestionDue(c) && delivered then c.(currentQuestionIndex := 1, readyToSend := false)
    else c
  }

  /**
    A delivered first question is never due again, so passes that run one
    after the other send it once.
  */
  lemma FirstQuestionSentOnce(c: Course, delivered: bool, again: bool)
    ensures FirstQuestionDue(c) && delivered ==> !FirstQuestionDue(SendFirst(c, delivered))
    ensures SendFirst(SendFirst(c, true), again) == SendFirst(c, true)
  {
  }

  /**
    `checkAndSendQuestions` over the whole store, in key order; a course's
    send succeeds when its id is in `delivered`. The messages are those
    attempted, one per course whose first question was due.
  */
  function CheckAndSendQuestions(store: seq<Entry>, delivered: set<string>): (r: (seq<Entry>, seq<string>))
    ensures |r.0| == |store|
    ensures forall i :: 0 <= i < |store| ==>
              r.0[i] == Entry(store[i].courseId, SendFirst(store[i].course, store[i].courseId in delivered))
    ensures |r.1| <= |store|
  {
    if store == [] then ([], [])
    else
      var e := store[0];
      var rest := CheckAndSendQuestions(store[1..], delivered);
      var entry := Entry(e.courseId, SendFirst(e.course, e.courseId in delivered));
      var sent := if FirstQuestionDue(e.course) then [FirstMessage(e.course.questions[0])] else [];
      ([entry] + rest.0, sent + rest.1)
  }

  /** The number of courses whose first question is due. */
  function CountDue(store: seq<Entry>): nat {
    if store == [] then 0
    else (if FirstQuestionDue(store[0].course) then 1 else 0) + CountDue(store[1..])
  }

  /**
    One message is attempted per due course, carrying that course's first
    question: every message belongs to a due course and every due course's
    message is there.
  */
  lemma {:induction false} CheckAndSendMessages(store: seq<Entry>, delivered: set<string>)
    ensures |CheckAndSendQuestions(store, delivered).1| == CountDue(store)
    ensures forall m :: m in CheckAndSendQuestions(store, delivered).1 ==>
              exists i :: 0 <= i < |store| && FirstQuestionDue(store[i].course)
                          && m == FirstMessage(store[i].course.questions[0])
    ensures forall i :: 0 <= i < |store| && FirstQuestionDue(store[i].course) ==>
              FirstMessage(store[i].course.questions[0]) in CheckAndSendQuestions(store, delivered).1
  {
    if store != [] {
      CheckAndSendMessages(store[1..], delivered);
      var r := CheckAndSendQuestions(store, delivered);
      var rest := CheckAndSendQuestions(store[1..], delivered);
      forall i | 0 <= i < |store| && FirstQuestionDue(store[i].course)
        ensures FirstMessage(store[i].course.questions[0]) in r.1
      {
        if i > 0 {
          assert store[i] == store[1..][i - 1];
        }
      }
      forall m | m in r.1
        ensures exists i :: 0 <= i < |store| && FirstQuestionDue(store[i].course)
                            && m == FirstMessage(store[i].course.questions[0])
      {
        if m !in rest.1 {
          assert FirstQuestionDue(store[0].course) && m == FirstMessage(store[0].course.questions[0]);
        } else {
          var i :| 0 <= i < |store[1..]| && FirstQuestionDue(store[1..][i].course)
                   && m == FirstMessage(store[1..][i].course.questions[0]);
          assert store[i + 1] == store[1..][i];
        }
      }
    }
  }

  /** No course is due, so nothing is counted. */
  lemma {:induction false} NoneDueCountsZero(store: seq<Entry>)
    requires forall i :: 0 <= i < |store| ==> !FirstQuestionDue(store[i].course)
    ensures CountDue(store) == 0
  {
    if store != [] {
      assert forall i :: 0 <= i < |store[1..]| ==> store[1..][i] == store[i + 1];
      NoneDueCountsZero(store[1..]);
    }
  }

  /**
    A second pass after every send was delivered attempts nothing: over passes
    that do not overlap, the first question goes out once per course.
  */
  lemma SecondPassSendsNothing(store: seq<Entry>, ids: set<string>, again: set<string>)
    requires forall i :: 0 <= i < |store| ==> store[i].courseId in ids
    ensures CheckAndSendQuestions(CheckAndSendQuestions(store, ids).0, again).1 == []
  {
    var once := CheckAndSendQuestions(store, ids).0;
    forall i | 0 <= i < |once|
      ensures !FirstQuestionDue(once[i].course)
    {
      FirstQuestionSentOnce(store[i].course, true, false);
    }
    NoneDueCountsZero(once);
    CheckAndSendMessages(once, again);
  }

  // ---------------------------------------------------------------------------
  // Pending question
  // ---------------------------------------------------------------------------

  /**
    The course is waiting for an answer: a question has been sent (the index
    is past it) and its id is not among the answered ones.
  */
  predicate Awaiting(c: Course) {
    0 < c.currentQuestionIndex <= |c.questions|
    && c.questions[c.currentQuestionIndex - 1].id !in c.answeredQuestions
  }

  /** What `findPendingQuestion` returns: the course id, the question and the course. */
  datatype Pending = Pending(courseId: string, question: Question, course: Course)

  /** The pending question of entry `e`, which must be awaiting an answer. */
  function PendingOf(e: Entry): Pending
    requires Awaiting(e.course)
  {
    Pending(e.courseId, e.course.questions[e.course.currentQuestionIndex - 1], e.course)
  }

  /** The first awaiting course of the tail is the first of the whole store, one place on. */
  lemma FirstAwaitingShift(store: seq<Entry>, i: int)
    requires store != [] && !Awaiting(store[0].course)
    requires 0 <= i < |store| - 1 && forall j :: 0 <= j < i ==> !Awaiting(store[1..][j].course)
    ensures store[i + 1] == store[1..][i]
    ensures forall j :: 0 <= j < i + 1 ==> !Awaiting(store[j].course)
  {
    assert forall j :: 0 < j <= i ==> store[j] == store[1..][j - 1];
  }

  lemma NoneAwaitingShift(store: seq<Entry>)
    requires store != [] && !Awaiting(store[0].course)
    requires forall i :: 0 <= i < |store[1..]| ==> !Awaiting(store[1..][i].course)
    ensures forall i :: 0 <= i < |store| ==> !Awaiting(store[i].course)
  {
    assert forall i :: 1 <= i < |store| ==> store[i] == store[1..][i - 1];
  }

  /**
    `findPendingQuestion`: the first course, in key order, that awaits an
    answer, or nothing when none does.
  */
  function FindPendingQuestion(store: seq<Entry>): (r: Option<Pending>)
    ensures r.None? <==> forall i :: 0 <= i < |store| ==> !Awaiting(store[i].course)
    ensures r.Some? ==> exists i :: 0 <= i < |store| && Awaiting(store[i].course)
                          && r.value == PendingOf(store[i])
                          && forall j :: 0 <= j < i ==> !Awaiting(store[j].course)
  {
    if store == [] then None
    else if Awaiting(store[0].course) then Some(PendingOf(store[0]))
    else
      var r := FindPendingQuestion(store[1..]);
      if r.Some? then
        var i :| 0 <= i < |store[1..]| && Awaiting(store[1..][i].course)
                 && r.value == PendingOf(store[1..][i])
                 && forall j :: 0 <= j < i ==> !Awaiting(store[1..][j].course);
        FirstAwaitingShift(store, i);
        r
      else
        NoneAwaitingShift(store);
        r
  }

  // ---------------------------------------------------------------------------
  // Answer recording
  // ---------------------------------------------------------------------------

  /** Position of the record stored under `courseId`, if any. */
  function IndexOf(store: seq<Entry>, courseId: string): (r: Option<nat>)
    ensures r.None? <==> forall i :: 0 <= i < |store| ==> store[i].courseId != courseId
    ensures r.Some? ==> r.value < |store| && store[r.value].courseId == courseId
  {
    if store == [] then None
    else if store[0].courseId == courseId then Some(0)
    else
      var r := IndexOf(store[1..], courseId);
      if r.Some? then Some(r.value + 1) else None
  }

  /**
    The answer-recording step of `handleQuestionAnswer`: once the feedback
    message is delivered, the question id is appended to the answered list of
    the course it belongs to, if that course is still in the store.
  */
  function RecordAnswer(store: seq<Entry>, courseId: string, questionId: string, feedbackSent: bool)
    : (r: seq<Entry>)
    ensures |r| == |store|
    ensures forall i :: 0 <= i < |store| ==> r[i].courseId == store[i].courseId
  {
    if !feedbackSent then store
    else
      match IndexOf(store, courseId)
      case None => store
      case Some(i) =>
        var c := store[i].course;
        store[i := Entry(courseId, c.(answeredQuestions := c.answeredQuestions + [questionId]))]
  }

  /**
    Recording touches exactly one record, and in it only the answered list,
    which grows by the question id; without delivery, or without the course,
    nothing changes.
  */
  lemma RecordAnswerEffect(store: seq<Entry>, courseId: string, questionId: string, feedbackSent: bool)
    ensures !feedbackSent || IndexOf(store, courseId).None? ==>
              RecordAnswer(store, courseId, questionId, feedbackSent) == store
    ensures feedbackSent && IndexOf(store, courseId).Some? ==>
              var i := IndexOf(store, courseId).value;
              var r := RecordAnswer(store, courseId, questionId, feedbackSent);
              && r[i].course.answeredQuestions == store[i].course.answeredQuestions + [questionId]
              && r[i].course.questions == store[i].course.questions
              && r[i].course.currentQuestionIndex == store[i].course.currentQuestionIndex
              && r[i].course.readyToSend == store[i].course.readyToSend
              && forall j :: 0 <= j < |store| && j != i ==> r[j] == store[j]
  {
  }

  /**
    Answering the pending question clears it: after the answer is recorded,
    that course no longer awaits an answer, and every other course is as
    before.
  */
  lemma AnswerClearsPending(store: seq<Entry>)
    requires UniqueIds(store)
    requires FindPendingQuestion(store).Some?
    ensures var p := FindPendingQuestion(store).value;
            var r := RecordAnswer(store, p.courseId, p.question.id, true);
            && IndexOf(store, p.courseId).Some?
            && !Awaiting(r[IndexOf(store, p.courseId).value].course)
            && forall j :: 0 <= j < |store| && store[j].courseId != p.courseId ==> r[j] == store[j]
  {
    var p := FindPendingQuestion(store).value;
    var i :| 0 <= i < |store| && Awaiting(store[i].course) && p == PendingOf(store[i])
             && forall j :: 0 <= j < i ==> !Awaiting(store[j].course);
    var k := IndexOf(store, p.courseId).value;
    assert k == i;
    RecordAnswerEffect(store, p.courseId, p.question.id, true);
  }

  // ---------------------------------------------------------------------------
  // Next question
  // ---------------------------------------------------------------------------

  /** What the bot says when asked for the next question. */
  datatype Reply =
    | Asked(question: Question)        // the question was delivered
    | SendFailed(question: Question)   // delivering the question failed
    | AllAnswered                      // skipping answered questions reached the end
    | AllCompleted                     // the index was already past the last question
    | CourseMissing                    // no record under the id

  datatype Step = Step(course: Course, reply: Reply)

  /**
    Reference position: the first question at or after `i` that has not been
    answered, or the number of questions when every remaining one has been.
  */
  function NextUnanswered(c: Course, i: nat): (j: nat)
    requires i <= |c.questions|
    ensures i <= j <= |c.questions|
    ensures forall k :: i <= k < j ==> c.questions[k].id in c.answeredQuestions
    ensures j < |c.questions| ==> c.questions[j].id !in c.answeredQuestions
    decreases |c.questions| - i
  {
    if i == |c.questions| || c.questions[i].id !in c.answeredQuestions then i
    else NextUnanswered(c, i + 1)
  }

  /**
    `sendNextQuestion` on one course: skip answered questions one index at a
    time; at the end announce that all are answered; otherwise send the first
    unanswered one and move past it if it was delivered. An index already
    past the last question only produces the completion message.
  */
  function SendNext(c: Course, delivered: bool): (r: Step)
    ensures SameContent(r.course, c) && r.course.readyToSend == c.readyToSend
    ensures r.course.currentQuestionIndex >= c.currentQuestionIndex
    decreases |c.questions| - c.currentQuestionIndex
  {
    if c.currentQuestionIndex < |c.questions| then
      var q := c.questions[c.currentQuestionIndex];
      if q.id in c.answeredQuestions then
        var skipped := c.(currentQuestionIndex := c.currentQuestionIndex + 1);
        if skipped.currentQuestionIndex >= |c.questions| then Step(skipped, AllAnswered)
        else SendNext(skipped, delivered)
      else if delivered then Step(c.(currentQuestionIndex := c.currentQuestionIndex + 1), Asked(q))
      else Step(c, SendFailed(q))
    else Step(c, AllCompleted)
  }

  /**
    Where `SendNext` leaves the index, against the reference position `j`:
    at the end when every remaining question was answered, just past `j`
    when it was delivered, at `j` when delivery failed.
  */
  lemma {:induction false} SendNextMatchesReference(c: Course, delivered: bool)
    ensures c.currentQuestionIndex >= |c.questions| ==> SendNext(c, delivered) == Step(c, AllCompleted)
    ensures c.currentQuestionIndex < |c.questions| ==>
              var j := NextUnanswered(c, c.currentQuestionIndex);
              var r := SendNext(c, delivered);
              && (j == |c.questions| ==> r.course.currentQuestionIndex == j && r.reply == AllAnswered)
              && (j < |c.questions| && delivered ==>
                    r.course.currentQuestionIndex == j + 1 && r.reply == Asked(c.questions[j]))
              && (j < |c.questions| && !delivered ==>
                    r.course.currentQuestionIndex == j && r.reply == SendFailed(c.questions[j]))
    decreases |c.questions| - c.currentQuestionIndex
  {
    if c.currentQuestionIndex < |c.questions| {
      var q := c.questions[c.currentQuestionIndex];
      if q.id in c.answeredQuestions {
        var skipped := c.(currentQuestionIndex := c.currentQuestionIndex + 1);
        if skipped.currentQuestionIndex < |c.questions| {
          SendNextMatchesReference(skipped, delivered);
          assert NextUnanswered(c, c.currentQuestionIndex) == NextUnanswered(skipped, skipped.currentQuestionIndex);
        }
      }
    }
  }

  /** Each question the index moves past was answered, or is the one just delivered. */
  lemma SendNextSkipsOnlyAnswered(c: Course, delivered: bool)
    ensures var r := SendNext(c, delivered);
            forall k :: c.currentQuestionIndex <= k < r.course.currentQuestionIndex && k < |c.questions| ==>
              c.questions[k].id in c.answeredQuestions || (delivered && r.reply == Asked(c.questions[k]))
  {
    SendNextMatchesReference(c, delivered);
  }

  /** `sendNextQuestion(courseId)` on the store: a missing course changes nothing. */
  function SendNextQuestion(store: seq<Entry>, courseId: string, delivered: bool): (r: (seq<Entry>, Reply))
    ensures |r.0| == |store|
    ensures IndexOf(store, courseId).None? ==> r == (store, CourseMissing)
    ensures IndexOf(store, courseId).Some? ==>
              var i := IndexOf(store, courseId).value;
              var s := SendNext(store[i].course, delivered);
              && r.0[i] == Entry(courseId, s.course) && r.1 == s.reply
              && forall j :: 0 <= j < |store| && j != i ==> r.0[j] == store[j]
  {
    match IndexOf(store, courseId)
    case None => (store, CourseMissing)
    case Some(i) =>
      var s := SendNext(store[i].course, delivered);
      (store[i := Entry(courseId, s.course)], s.reply)
  }

  /** Asking for another question serves the first course with questions left. */
  function FirstWithQuestionsLeft(store: seq<Entry>): (r: Option<nat>)
    ensures r.None? <==> forall i :: 0 <= i < |store| ==>
              store[i].course.currentQuestionIndex >= |store[i].course.questions|
    ensures r.Some? ==>
              && r.value < |store|
              && store[r.value].course.currentQuestionIndex < |store[r.value].course.questions|
              && forall j :: 0 <= j < r.value ==>
                   store[j].course.currentQuestionIndex >= |store[j].course.questions|
  {
    if store == [] then None
    else if store[0].course.currentQuestionIndex < |store[0].course.questions| then Some(0)
    else
      var r := FirstWithQuestionsLeft(store[1..]);
      if r.Some? then Some(r.value + 1) else None
  }

  /**
    The next-question request in `processMessage`: the first course with
    questions left is advanced; when there is none the store is unchanged
    and the reply is `None` (the "all questions have been answered" message).
  */
  function RequestAnotherQuestion(store: seq<Entry>, delivered: bool): (r: (seq<Entry>, Option<Reply>))
    requires UniqueIds(store)
    ensures |r.0| == |store|
    ensures r.1.None? <==> FirstWithQuestionsLeft(store).None?
    ensures r.1.None? ==> r.0 == store
    ensures forall i :: 0 <= i < |store| ==>
              r.0[i].courseId == store[i].courseId
              && r.0[i].course.currentQuestionIndex >= store[i].course.currentQuestionIndex
              && SameContent(r.0[i].course, store[i].course)
    ensures r.1.Some? ==>
              var i := FirstWithQuestionsLeft(store).value;
              var s := SendNext(store[i].course, delivered);
              && r.0[i].course == s.course && r.1 == Some(s.reply)
              && forall j :: 0 <= j < |store| && j != i ==> r.0[j] == store[j]
  {
    match FirstWithQuestionsLeft(store)
    case None => (store, None)
    case Some(i) =>
      var id := store[i].courseId;
      var k := IndexOf(store, id).value;
      assert k == i;
      var r := SendNextQuestion(store, id, delivered);
      (r.0, Some(r.1))
  }

  /**
    No transition lowers a course's index: the first send, the next-question
    step and answer recording all leave it the same or larger.
  */
  lemma IndexNeverDecreases(c: Course, delivered: bool, store: seq<Entry>, courseId: string, qid: string)
    ensures SendFirst(c, delivered).currentQuestionIndex >= c.currentQuestionIndex
    ensures SendNext(c, delivered).course.currentQuestionIndex >= c.currentQuestionIndex
    ensures forall i :: 0 <= i < |store| ==>
              RecordAnswer(store, courseId, qid, delivered)[i].course.currentQuestionIndex
                == store[i].course.currentQuestionIndex
  {
    RecordAnswerEffect(store, courseId, qid, delivered);
  }

  // ---------------------------------------------------------------------------
  // Sender match
  // ---------------------------------------------------------------------------

  const DemoPhoneNumber: string := "+14047165833"

  /**
    The sender test in `processMessage`: the sender's digits equal the demo
    number's digits, or the sender contains the national number, or it
    contains the full `+1` number.
  */
  predicate IsDemoNumber(sender: string) {
    Digits(sender) == Digits(DemoPhoneNumber)
    || HasSubstring(sender, "4047165833")
    || HasSubstring(sender, "+14047165833")
  }

  lemma DemoDigits()
    ensures Digits(DemoPhoneNumber) == "14047165833"
  {
    assert DemoPhoneNumber[1..] == "14047165833";
    DigitsOfDigits("14047165833");
  }

  /** The third test adds nothing: the full number contains the national one. */
  lemma ThirdTestRedundant(sender: string)
    ensures IsDemoNumber(sender) <==>
              Digits(sender) == "14047165833" || HasSubstring(sender, "4047165833")
  {
    DemoDigits();
    if HasSubstring(sender, "+14047165833") {
      assert "+14047165833"[2..] == "4047165833";
      SuffixSubstring(sender, "+14047165833", 2);
    }
  }

  /** Any sender that contains the national number matches, whatever surrounds it. */
  lemma ContainingNationalMatches(prefix: string, suffix: string)
    ensures IsDemoNumber(prefix + "4047165833" + suffix)
  {
    var s := prefix + "4047165833" + suffix;
    assert s[|prefix|..|prefix| + 10] == "4047165833";
    assert OccursAt(s, "4047165833", |prefix|);
  }

  /** No plain run of the national number occurs in its punctuated form. */
  lemma PunctuatedHasNoRun(s: string)
    requires s == "(404) 716-5833"
    ensures !HasSubstring(s, "4047165833")
  {
    forall i | 0 <= i <= |s|
      ensures !OccursAt(s, "4047165833", i)
    {
      if i == 0 || i == 2 || i == 4 {
        assert s[i] != '4';
      } else if i == 1 {
        assert s[4] != '7';
      } else if i == 3 {
        assert s[4] != '0';
      }
    }
  }

  /** After one leading non-digit, the first digit of `s` is `s[1]`. */
  lemma LeadingDigitAfterSign(s: string)
    requires |s| >= 2 && !IsDigit(s[0]) && IsDigit(s[1])
    ensures Digits(s) != [] && Digits(s)[0] == s[1]
  {
    assert s[1..][1..] == s[2..];
  }

  /** A sender whose first digit is not the country code `1` matches only through the national run. */
  lemma NotDemoByFirstDigit(s: string)
    requires Digits(s) != [] && Digits(s)[0] != '1'
    requires !HasSubstring(s, "4047165833")
    ensures !IsDemoNumber(s)
  {
    ThirdTestRedundant(s);
    assert "14047165833"[0] == '1';
  }

  /** The punctuated national number opens with `(4` and has no plain national run. */
  lemma PunctuatedShape(s: string)
    requires s == "(404) 716-5833"
    ensures |s| >= 2 && !IsDigit(s[0]) && s[1] == '4'
    ensures !HasSubstring(s, "4047165833")
  {
    PunctuatedHasNoRun(s);
  }

  /** A sender opening with a non-digit and then `4`, without the national run, does not match. */
  lemma NotDemoPunctuated(s: string)
    requires |s| >= 2 && !IsDigit(s[0]) && s[1] == '4'
    requires !HasSubstring(s, "4047165833")
    ensures !IsDemoNumber(s)
  {
    LeadingDigitAfterSign(s);
    NotDemoByFirstDigit(s);
  }

  /**
    A punctuated national number matches none of the tests: its digits lack
    the country code and no plain run of the national number occurs in it.
  */
  lemma PunctuatedNationalDoesNotMatch()
    ensures !IsDemoNumber("(404) 716-5833")
  {
    var s := "(404) 716-5833";
    PunctuatedShape(s);
    NotDemoPunctuated(s);
  }
}

=== FILE: free_time.dfy ===
/**
  `getFreeTimeFrames`: the free time inside a window `[startDate, finalDate]`
  around a list of busy calendar events, as a list of gaps at least five
  minutes long.
*/
module FreeTime {
  import opened Intervals

  /**
    The walk over the events after the first, in start order. `endTime` is
    the running latest busy end; a gap `[endTime, s)` is emitted only when the
    next event starts after it, and the walk closes with the gap from the
    final `endTime` to `finalDate`.
  */
  function Walk(endTime: int, rest: seq<Interval>, finalDate: int): seq<Interval>
    decreases |rest|
  {
    if rest == [] then [Interval(endTime, finalDate)]
    else
      var ev := rest[0];
      var gap := if ev.start > endTime then [Interval(endTime, ev.start)] else [];
      gap + Walk(Max(endTime, ev.end), rest[1..], finalDate)
  }

  /** Every gap the extractor emits for non-empty sorted events, before filtering. */
  function RawFrames(startDate: int, sorted: seq<Interval>, finalDate: int): seq<Interval>
    requires |sorted| > 0
  {
    [Interval(startDate, sorted[0].start)] + Walk(sorted[0].end, sorted[1..], finalDate)
  }

  /**
    `getFreeTimeFrames(startDate, events, finalDate)`. With no events the
    whole window is returned as it is, without the five-minute filter;
    otherwise every returned gap is at least five minutes long.
  */
  function GetFreeTimeFrames(startDate: int, events: seq<Interval>, finalDate: int): (r: seq<Interval>)
    ensures events == [] ==> r == [Interval(startDate, finalDate)]
    ensures events != [] ==> forall iv :: iv in r ==> LongEnough(iv)
  {
    if events == [] then [Interval(startDate, finalDate)]
    else KeepLong(RawFrames(startDate, SortByStart(events), finalDate))
  }

  // ---------------------------------------------------------------------------
  // Facts about the walk
  // ---------------------------------------------------------------------------

  /** Gaps never start before the running busy end they were walked from. */
  lemma {:induction false} WalkStartsAfter(endTime: int, rest: seq<Interval>, finalDate: int)
    ensures forall g :: g in Walk(endTime, rest, finalDate) ==> endTime <= g.start
    decreases |rest|
  {
    if rest != [] {
      WalkStartsAfter(Max(endTime, rest[0].end), rest[1..], finalDate);
    }
  }

  lemma {:induction false} WalkOrdered(endTime: int, rest: seq<Interval>, finalDate: int)
    ensures WellFormed(rest) ==> Ordered(Walk(endTime, rest, finalDate))
    ensures Positive(rest) ==> StrictlyOrdered(Walk(endTime, rest, finalDate))
    decreases |rest|
  {
    if rest != [] {
      var ev := rest[0];
      var next := Max(endTime, ev.end);
      var w := Walk(next, rest[1..], finalDate);
      WalkOrdered(next, rest[1..], finalDate);
      WalkStartsAfter(next, rest[1..], finalDate);
      if ev.start > endTime {
        ConsOrdered(Interval(endTime, ev.start), w);
      }
    }
  }

  /** No gap overlaps a walked event: earlier ones end before it, later ones start after. */
  lemma {:induction false} WalkAvoidsEvents(endTime: int, rest: seq<Interval>, finalDate: int)
    requires SortedByStart(rest)
    ensures forall g, k :: g in Walk(endTime, rest, finalDate) && 0 <= k < |rest| ==> Disjoint(g, rest[k])
    decreases |rest|
  {
    if rest != [] {
      var ev := rest[0];
      var next := Max(endTime, ev.end);
      var tail := rest[1..];
      WalkAvoidsEvents(next, tail, finalDate);
      WalkStartsAfter(next, tail, finalDate);
      forall g, k | g in Walk(endTime, rest, finalDate) && 0 <= k < |rest|
        ensures Disjoint(g, rest[k])
      {
        if g in Walk(next, tail, finalDate) {
          if k > 0 {
            assert rest[k] == tail[k - 1];
          }
        }
      }
    }
  }

  /** Every instant from `endTime` to `finalDate` outside all events lies in a gap. */
  lemma {:induction false} WalkCovers(endTime: int, rest: seq<Interval>, finalDate: int, t: int)
    requires endTime <= t < finalDate
    requires forall k :: 0 <= k < |rest| ==> !Contains(rest[k], t)
    ensures Covers(Walk(endTime, rest, finalDate), t)
    decreases |rest|
  {
    if rest == [] {
      CoversCons(Interval(endTime, finalDate), [], t);
      assert [Interval(endTime, finalDate)] + [] == [Interval(endTime, finalDate)];
    } else {
      var ev := rest[0];
      var next := Max(endTime, ev.end);
      var w := Walk(next, rest[1..], finalDate);
      if t < ev.start {
        CoversCons(Interval(endTime, ev.start), w, t);
      } else {
        assert !Contains(rest[0], t);
        assert forall k :: 0 <= k < |rest[1..]| ==> rest[1..][k] == rest[k + 1];
        WalkCovers(next, rest[1..], finalDate, t);
        var gap := if ev.start > endTime then [Interval(endTime, ev.start)] else [];
        CoversConcat(gap, w, t);
      }
    }
  }

  /** Gaps end no later than `finalDate` when no walked event starts after it. */
  lemma {:induction false} WalkEndsBy(endTime: int, rest: seq<Interval>, finalDate: int)
    requires forall k :: 0 <= k < |rest| ==> rest[k].start <= finalDate
    ensures forall g :: g in Walk(endTime, rest, finalDate) ==> g.end <= finalDate
    decreases |rest|
  {
    if rest != [] {
      assert forall k :: 0 <= k < |rest[1..]| ==> rest[1..][k] == rest[k + 1];
      WalkEndsBy(Max(endTime, rest[0].end), rest[1..], finalDate);
    }
  }

  /** Every gap ends at `finalDate` or where some walked event starts. */
  lemma {:induction false} WalkEndsAtEventOrFinal(endTime: int, rest: seq<Interval>, finalDate: int)
    ensures forall g :: g in Walk(endTime, rest, finalDate) ==>
              g.end == finalDate || exists k :: 0 <= k < |rest| && rest[k].start == g.end
    decreases |rest|
  {
    if rest != [] {
      var next := Max(endTime, rest[0].end);
      var tail := rest[1..];
      WalkEndsAtEventOrFinal(next, tail, finalDate);
      forall g | g in Walk(endTime, rest, finalDate) && g.end != finalDate
        ensures exists k :: 0 <= k < |rest| && rest[k].start == g.end
      {
        if g in Walk(next, tail, finalDate) {
          var k :| 0 <= k < |tail| && tail[k].start == g.end;
          assert rest[k + 1] == tail[k];
        } else {
          assert rest[0].start == g.end;
        }
      }
    }
  }

  /** An instant of the window that no event covers lies in some raw gap. */
  lemma RawFramesCover(startDate: int, sorted: seq<Interval>, finalDate: int, t: int)
    requires |sorted| > 0
    requires startDate <= t < finalDate
    requires forall k :: 0 <= k < |sorted| ==> !Contains(sorted[k], t)
    ensures Covers(RawFrames(startDate, sorted, finalDate), t)
  {
    var first := sorted[0];
    var tail := sorted[1..];
    var w := Walk(first.end, tail, finalDate);
    if t >= first.start {
      assert !Contains(first, t);
      assert forall k :: 0 <= k < |tail| ==> tail[k] == sorted[k + 1];
      WalkCovers(first.end, tail, finalDate, t);
    }
    CoversCons(Interval(startDate, first.start), w, t);
  }

  /** Every raw gap ends at `finalDate` or where some event starts. */
  lemma RawFramesEndAtEventOrFinal(startDate: int, sorted: seq<Interval>, finalDate: int)
    requires |sorted| > 0
    ensures forall g :: g in RawFrames(startDate, sorted, finalDate) ==>
              g.end == finalDate || exists k :: 0 <= k < |sorted| && sorted[k].start == g.end
  {
    var tail := sorted[1..];
    WalkEndsAtEventOrFinal(sorted[0].end, tail, finalDate);
    forall g | g in RawFrames(startDate, sorted, finalDate) && g.end != finalDate
      ensures exists k :: 0 <= k < |sorted| && sorted[k].start == g.end
    {
      if g in Walk(sorted[0].end, tail, finalDate) {
        var k :| 0 <= k < |tail| && tail[k].start == g.end;
        assert sorted[k + 1] == tail[k];
      } else {
        assert sorted[0].start == g.end;
      }
    }
  }

  /** A run inside the window that no event of positive length touches lies in one raw gap. */
  lemma RawFramesKeepRun(startDate: int, sorted: seq<Interval>, finalDate: int, x: int, y: int)
    requires |sorted| > 0 && Positive(sorted)
    requires startDate <= x < y <= finalDate
    requires forall k, t :: 0 <= k < |sorted| && x <= t < y ==> !Contains(sorted[k], t)
    ensures exists g :: g in RawFrames(startDate, sorted, finalDate) && g.start <= x && y <= g.end
  {
    var raw := RawFrames(startDate, sorted, finalDate);
    RawFramesCover(startDate, sorted, finalDate, x);
    var i :| 0 <= i < |raw| && Contains(raw[i], x);
    RawFramesEndAtEventOrFinal(startDate, sorted, finalDate);
    if raw[i].end < y {
      var k :| 0 <= k < |sorted| && sorted[k].start == raw[i].end;
      assert Contains(sorted[k], raw[i].end);
      assert false;
    }
    assert raw[i] in raw;
  }

  // ---------------------------------------------------------------------------
  // Properties of getFreeTimeFrames
  // ---------------------------------------------------------------------------

  lemma RawFramesOrdered(startDate: int, sorted: seq<Interval>, finalDate: int)
    requires |sorted| > 0
    ensures WellFormed(sorted) ==> Ordered(RawFrames(startDate, sorted, finalDate))
    ensures Positive(sorted) ==> StrictlyOrdered(RawFrames(startDate, sorted, finalDate))
  {
    var first := sorted[0];
    var tail := sorted[1..];
    var w := Walk(first.end, tail, finalDate);
    assert forall k :: 0 <= k < |tail| ==> tail[k] == sorted[k + 1];
    WalkOrdered(first.end, tail, finalDate);
    WalkStartsAfter(first.end, tail, finalDate);
    ConsOrdered(Interval(startDate, first.start), w);
  }

  /**
    With well-formed events the free frames come out in order, each ending no
    later than the next starts; with events of positive length no two frames
    even touch.
  */
  lemma FreeFramesOrdered(startDate: int, events: seq<Interval>, finalDate: int)
    requires events != []
    ensures WellFormed(events) ==> Ordered(GetFreeTimeFrames(startDate, events, finalDate))
    ensures Positive(events) ==> StrictlyOrdered(GetFreeTimeFrames(startDate, events, finalDate))
  {
    var sorted := SortByStart(events);
    SortPreservesWellFormed(events);
    SortPreservesPositive(events);
    RawFramesOrdered(startDate, sorted, finalDate);
    KeepLongOrdered(RawFrames(startDate, sorted, finalDate));
  }

  /** No free frame overlaps any busy event, however the events overlap or nest. */
  lemma FreeFramesAvoidEvents(startDate: int, events: seq<Interval>, finalDate: int)
    ensures forall iv, ev :: iv in GetFreeTimeFrames(startDate, events, finalDate) && ev in events ==> Disjoint(iv, ev)
  {
    if events != [] {
      var sorted := SortByStart(events);
      var first := sorted[0];
      var tail := sorted[1..];
      var raw := RawFrames(startDate, sorted, finalDate);
      SortSameMembers(events);
      WalkAvoidsEvents(first.end, tail, finalDate);
      WalkStartsAfter(first.end, tail, finalDate);
      forall g, ev | g in raw && ev in events
        ensures Disjoint(g, ev)
      {
        assert ev in sorted;
        var k :| 0 <= k < |sorted| && sorted[k] == ev;
        if k > 0 {
          assert tail[k - 1] == ev;
        }
      }
    }
  }

  /**
    Complement: an instant of the window that no event covers is either in a
    returned free frame or in a gap the five-minute filter dropped.
  */
  lemma FreeFramesComplement(startDate: int, events: seq<Interval>, finalDate: int, t: int)
    requires startDate <= t < finalDate
    requires forall ev :: ev in events ==> !Contains(ev, t)
    ensures Covers(GetFreeTimeFrames(startDate, events, finalDate), t)
            || (events != [] && exists g :: g in RawFrames(startDate, SortByStart(events), finalDate) && Contains(g, t) && !LongEnough(g))
  {
    var r := GetFreeTimeFrames(startDate, events, finalDate);
    if events == [] {
      assert Contains(r[0], t);
    } else {
      var sorted := SortByStart(events);
      var raw := RawFrames(startDate, sorted, finalDate);
      SortSameMembers(events);
      assert forall k :: 0 <= k < |sorted| ==> sorted[k] in events;
      RawFramesCover(startDate, sorted, finalDate, t);
      var i :| 0 <= i < |raw| && Contains(raw[i], t);
      if LongEnough(raw[i]) {
        assert raw[i] in r;
        var j :| 0 <= j < |r| && r[j] == raw[i];
      }
    }
  }

  /**
    The converse of `FreeFramesAvoidEvents`: a run of at least five minutes
    inside the window that no event touches is free time. Events must have
    positive length: a gap always ends at `finalDate` or where an event
    starts, so an empty event inside a free run cuts it short.
  */
  lemma FreeFramesKeepLongFreeRuns(startDate: int, events: seq<Interval>, finalDate: int, x: int, y: int)
    requires Positive(events)
    requires startDate <= x && y <= finalDate && y - x >= MinKeepMs
    requires forall ev, t :: ev in events && x <= t < y ==> !Contains(ev, t)
    ensures forall t :: x <= t < y ==> Covers(GetFreeTimeFrames(startDate, events, finalDate), t)
  {
    var r := GetFreeTimeFrames(startDate, events, finalDate);
    if events == [] {
      forall t | x <= t < y
        ensures Covers(r, t)
      {
        assert Contains(r[0], t);
      }
    } else {
      var sorted := SortByStart(events);
      SortSameMembers(events);
      SortPreservesPositive(events);
      forall k, t | 0 <= k < |sorted| && x <= t < y
        ensures !Contains(sorted[k], t)
      {
        assert sorted[k] in events;
      }
      RawFramesKeepRun(startDate, sorted, finalDate, x, y);
      var g :| g in RawFrames(startDate, sorted, finalDate) && g.start <= x && y <= g.end;
      assert LongEnough(g) && g in r;
      var j :| 0 <= j < |r| && r[j] == g;
      forall t | x <= t < y
        ensures Covers(r, t)
      {
        assert Contains(r[j], t);
      }
    }
  }

  /**
    When every event touches the window (ends at or after `startDate` and
    starts at or before `finalDate`, as a calendar query for the window
    returns), every free frame lies inside the window.
  */
  lemma FreeFramesWithinWindow(startDate: int, events: seq<Interval>, finalDate: int)
    requires forall ev :: ev in events ==> startDate <= ev.end && ev.start <= finalDate
    ensures forall iv :: iv in GetFreeTimeFrames(startDate, events, finalDate) ==> startDate <= iv.start && iv.end <= finalDate
  {
    if events != [] {
      var sorted := SortByStart(events);
      var first := sorted[0];
      var tail := sorted[1..];
      SortSameMembers(events);
      assert first in events;
      assert forall k :: 0 <= k < |tail| ==> tail[k] in events;
      WalkStartsAfter(first.end, tail, finalDate);
      WalkEndsBy(first.end, tail, finalDate);
    }
  }

  // ---------------------------------------------------------------------------
  // Worked examples (D0 is any instant; h = hour, m = minute, in ms)
  // ---------------------------------------------------------------------------

  const HourMs: int := 60 * MinuteMs
  const DayMs: int := 24 * HourMs

  /** The walk over a single remaining event. */
  lemma WalkOne(endTime: int, ev: Interval, finalDate: int)
    ensures Walk(endTime, [ev], finalDate)
            == (if ev.start > endTime then [Interval(endTime, ev.start)] else []) + [Interval(Max(endTime, ev.end), finalDate)]
  {
    assert [ev][1..] == [];
  }

  /** The extractor on two events already in start order. */
  lemma RawFramesOfTwo(startDate: int, a: Interval, b: Interval, finalDate: int)
    requires a.start <= b.start
    ensures SortByStart([a, b]) == [a, b]
    ensures RawFrames(startDate, [a, b], finalDate)
            == [Interval(startDate, a.start)] + Walk(a.end, [b], finalDate)
  {
    SortSortedIsIdentity([a, b]);
    assert [a, b][1..] == [b];
  }

  /** Filtering a list whose first interval is long enough keeps it in front. */
  lemma KeepLongFirst(x: Interval, xs: seq<Interval>)
    ensures KeepLong([x] + xs) == (if LongEnough(x) then [x] else []) + KeepLong(xs)
  {
    assert ([x] + xs)[1..] == xs;
  }

  /** One busy hour inside a day leaves the time before and after it. */
  lemma OneBusyHour(d0: int)
    ensures GetFreeTimeFrames(d0, [Interval(d0 + 2 * HourMs, d0 + 3 * HourMs)], d0 + DayMs)
            == [Interval(d0, d0 + 2 * HourMs), Interval(d0 + 3 * HourMs, d0 + DayMs)]
  {
    var ev := [Interval(d0 + 2 * HourMs, d0 + 3 * HourMs)];
    SortSortedIsIdentity(ev);
    var before := Interval(d0, d0 + 2 * HourMs);
    var after := Interval(d0 + 3 * HourMs, d0 + DayMs);
    assert ev[1..] == [];
    assert RawFrames(d0, ev, d0 + DayMs) == [before] + [after];
    KeepLongFirst(before, [after]);
    KeepLongFirst(after, []);
  }

  /** Overlapping events leave no spurious gap where they overlap. */
  lemma OverlappingEvents(d0: int)
    ensures GetFreeTimeFrames(d0, [Interval(d0 + HourMs, d0 + 3 * HourMs), Interval(d0 + 2 * HourMs, d0 + 4 * HourMs)], d0 + 5 * HourMs)
            == [Interval(d0, d0 + HourMs), Interval(d0 + 4 * HourMs, d0 + 5 * HourMs)]
  {
    var a := Interval(d0 + HourMs, d0 + 3 * HourMs);
    var b := Interval(d0 + 2 * HourMs, d0 + 4 * HourMs);
    var f := d0 + 5 * HourMs;
    var before := Interval(d0, a.start);
    var after := Interval(b.end, f);
    RawFramesOfTwo(d0, a, b, f);
    WalkOne(a.end, b, f);
    assert RawFrames(d0, [a, b], f) == [before] + [after];
    KeepLongFirst(before, [after]);
    KeepLongFirst(after, []);
  }

  /** A three-minute gap between two events is not free time. */
  lemma ShortGapDropped(d0: int)
    ensures GetFreeTimeFrames(d0, [Interval(d0, d0 + HourMs), Interval(d0 + HourMs + 3 * MinuteMs, d0 + 2 * HourMs)], d0 + 2 * HourMs)
            == []
  {
    var a := Interval(d0, d0 + HourMs);
    var b := Interval(d0 + HourMs + 3 * MinuteMs, d0 + 2 * HourMs);
    var f := d0 + 2 * HourMs;
    var empty := Interval(d0, d0);
    var gap := Interval(a.end, b.start);
    var last := Interval(b.end, f);
    RawFramesOfTwo(d0, a, b, f);
    WalkOne(a.end, b, f);
    assert RawFrames(d0, [a, b], f) == [empty] + ([gap] + [last]);
    KeepLongFirst(empty, [gap] + [last]);
    KeepLongFirst(gap, [last]);
    KeepLongFirst(last, []);
  }

  /**
    The frames are not clipped to the window: when an event ending before
    `startDate` has the latest end seen so far, the next gap starts at that
    end, before the window.
  */
  lemma EventBeforeWindowLeaks(d0: int)
    ensures GetFreeTimeFrames(d0, [Interval(d0 - 10 * MinuteMs, d0 - 5 * MinuteMs)], d0 + HourMs)
            == [Interval(d0 - 5 * MinuteMs, d0 + HourMs)]
  {
    var ev := [Interval(d0 - 10 * MinuteMs, d0 - 5 * MinuteMs)];
    SortSortedIsIdentity(ev);
    var before := Interval(d0, d0 - 10 * MinuteMs);
    var after := Interval(d0 - 5 * MinuteMs, d0 + HourMs);
    assert ev[1..] == [];
    assert RawFrames(d0, ev, d0 + HourMs) == [before] + [after];
    KeepLongFirst(before, [after]);
    KeepLongFirst(after, []);
  }

  /**
    Why `FreeFramesKeepLongFreeRuns` asks for events of positive length: an
    empty event three minutes into the window ends the first gap there, and
    the filter then drops those three free minutes.
  */
  lemma EmptyEventCutsFreeTime(d0: int)
    ensures GetFreeTimeFrames(d0, [Interval(d0 + 3 * MinuteMs, d0 + 3 * MinuteMs)], d0 + HourMs)
            == [Interval(d0 + 3 * MinuteMs, d0 + HourMs)]
  {
    var ev := [Interval(d0 + 3 * MinuteMs, d0 + 3 * MinuteMs)];
    SortSortedIsIdentity(ev);
    var before := Interval(d0, d0 + 3 * MinuteMs);
    var after := Interval(d0 + 3 * MinuteMs, d0 + HourMs);
    assert ev[1..] == [];
    assert RawFrames(d0, ev, d0 + HourMs) == [before] + [after];
    KeepLongFirst(before, [after]);
    KeepLongFirst(after, []);
  }
}

=== FILE: intervals.dfy ===
/**
  Closed-open time intervals over integer millisecond instants, and the
  interval-list operations the calendar free-time code is built from:
  the minimum-length filter, the stable sort by start, subtraction of one
  block from one interval, and the merge of touching or overlapping intervals.
*/
module Intervals {

  /** Milliseconds in one minute. */
  const MinuteMs: int := 60000

  /** Free intervals shorter than this (5 minutes) are discarded. */
  const MinKeepMs: int := 5 * MinuteMs

  /** The pair `[start, end]`, read as the half-open range `[start, end)`. */
  datatype Interval = Interval(start: int, end: int)

  function Duration(iv: Interval): int {
    iv.end - iv.start
  }

  function Max(a: int, b: int): int { if a >= b then a else b }

  predicate Contains(iv: Interval, t: int) {
    iv.start <= t < iv.end
  }

  /** Some interval of `xs` contains the instant `t`. */
  predicate Covers(xs: seq<Interval>, t: int) {
    exists i :: 0 <= i < |xs| && Contains(xs[i], t)
  }

  /** The two ranges share no instant, read off their end points. */
  predicate Disjoint(x: Interval, y: Interval) {
    x.end <= y.start || y.end <= x.start
  }

  predicate LongEnough(iv: Interval) {
    Duration(iv) >= MinKeepMs
  }

  predicate WellFormed(xs: seq<Interval>) {
    forall i :: 0 <= i < |xs| ==> xs[i].start <= xs[i].end
  }

  /** Every interval has positive length. */
  predicate Positive(xs: seq<Interval>) {
    forall i :: 0 <= i < |xs| ==> xs[i].start < xs[i].end
  }

  predicate SortedByStart(xs: seq<Interval>) {
    forall i, j :: 0 <= i < j < |xs| ==> xs[i].start <= xs[j].start
  }

  /** Each interval ends no later than any later one starts. */
  predicate Ordered(xs: seq<Interval>) {
    forall i, j :: 0 <= i < j < |xs| ==> xs[i].end <= xs[j].start
  }

  /** Each interval ends strictly before any later one starts: no two touch. */
  predicate StrictlyOrdered(xs: seq<Interval>) {
    forall i, j :: 0 <= i < j < |xs| ==> xs[i].end < xs[j].start
  }

  /** Each interval starts strictly after its predecessor ends. */
  predicate Separated(xs: seq<Interval>) {
    forall i :: 0 < i < |xs| ==> xs[i - 1].end < xs[i].start
  }

  lemma CoversConcat(a: seq<Interval>, b: seq<Interval>, t: int)
    ensures Covers(a + b, t) <==> Covers(a, t) || Covers(b, t)
  {
    if Covers(a + b, t) {
      var i :| 0 <= i < |a + b| && Contains((a + b)[i], t);
      if i >= |a| {
        assert b[i - |a|] == (a + b)[i];
      }
    }
    if Covers(b, t) {
      var i :| 0 <= i < |b| && Contains(b[i], t);
      assert (a + b)[|a| + i] == b[i];
    }
    if Covers(a, t) {
      var i :| 0 <= i < |a| && Contains(a[i], t);
      assert (a + b)[i] == a[i];
    }
  }

  lemma CoversCons(x: Interval, b: seq<Interval>, t: int)
    ensures Covers([x] + b, t) <==> Contains(x, t) || Covers(b, t)
  {
    CoversConcat([x], b, t);
    if Contains(x, t) {
      assert [x][0] == x;
    }
  }

  /** An adjacent-separated list of well-formed intervals is strictly ordered. */
  lemma {:induction false} SeparatedIsStrictlyOrdered(xs: seq<Interval>)
    requires WellFormed(xs) && Separated(xs)
    ensures StrictlyOrdered(xs)
  {
    if |xs| > 1 {
      var tail := xs[1..];
      SeparatedIsStrictlyOrdered(tail);
      forall i, j | 0 <= i < j < |xs|
        ensures xs[i].end < xs[j].start
      {
        if i > 0 {
          assert xs[i] == tail[i - 1] && xs[j] == tail[j - 1];
        } else if j > 1 {
          assert xs[1] == tail[0] && xs[j] == tail[j - 1];
        }
      }
    }
  }

  // ---------------------------------------------------------------------------
  // Minimum-length filter
  // ---------------------------------------------------------------------------

  /**
    Keeps the intervals at least five minutes long, in their original order.
    (`(e - s) / 60000 >= 5` on milliseconds, which for integers is the same
    test as `e - s >= 300000`.)
  */
  function KeepLong(xs: seq<Interval>): (r: seq<Interval>)
    ensures forall iv :: iv in r <==> iv in xs && LongEnough(iv)
    ensures |r| <= |xs|
  {
    if xs == [] then []
    else if LongEnough(xs[0]) then [xs[0]] + KeepLong(xs[1..])
    else KeepLong(xs[1..])
  }

  /** An interval ending before every member of an ordered list can go in front. */
  lemma ConsOrdered(g: Interval, w: seq<Interval>)
    ensures Ordered(w) && (forall h :: h in w ==> g.end <= h.start) ==> Ordered([g] + w)
    ensures StrictlyOrdered(w) && (forall h :: h in w ==> g.end < h.start) ==> StrictlyOrdered([g] + w)
  {
    var l := [g] + w;
    assert forall j :: 0 < j < |l| ==> l[j] == w[j - 1] && l[j] in w;
  }

  /** In an ordered list the head ends before every later interval starts. */
  lemma HeadBeforeTail(xs: seq<Interval>)
    requires xs != []
    ensures Ordered(xs) ==> forall h :: h in xs[1..] ==> xs[0].end <= h.start
    ensures StrictlyOrdered(xs) ==> forall h :: h in xs[1..] ==> xs[0].end < h.start
  {
    forall h | h in xs[1..]
      ensures exists k :: 0 < k < |xs| && xs[k] == h
    {
      var k :| 0 <= k < |xs[1..]| && xs[1..][k] == h;
      assert xs[k + 1] == h;
    }
  }

  /** Filtering keeps the free-time ordering, strict or not. */
  lemma {:induction false} KeepLongOrdered(xs: seq<Interval>)
    ensures Ordered(xs) ==> Ordered(KeepLong(xs))
    ensures StrictlyOrdered(xs) ==> StrictlyOrdered(KeepLong(xs))
  {
    if xs != [] {
      var tail := xs[1..];
      KeepLongOrdered(tail);
      assert Ordered(xs) ==> Ordered(tail);
      assert StrictlyOrdered(xs) ==> StrictlyOrdered(tail);
      if LongEnough(xs[0]) {
        HeadBeforeTail(xs);
        ConsOrdered(xs[0], KeepLong(tail));
      }
    }
  }

  // ---------------------------------------------------------------------------
  // Stable sort by start
  // ---------------------------------------------------------------------------

  /** A sorted list stays sorted with an interval in front that starts no later. */
  lemma ConsSorted(y: Interval, rest: seq<Interval>)
    requires SortedByStart(rest)
    requires rest != [] ==> y.start <= rest[0].start
    ensures SortedByStart([y] + rest)
  {
    var r := [y] + rest;
    assert forall j :: 0 < j < |r| ==> r[j] == rest[j - 1];
  }

  /** The recursive case of `Insert`: the head stays in front of the inserted tail. */
  lemma InsertBehindHead(x: Interval, xs: seq<Interval>, rest: seq<Interval>)
    requires xs != [] && SortedByStart(xs) && xs[0].start < x.start
    requires multiset(rest) == multiset(xs[1..]) + multiset{x}
    requires rest != [] && (rest[0] == x || (|xs| > 1 && rest[0] == xs[1])) && SortedByStart(rest)
    ensures multiset([xs[0]] + rest) == multiset(xs) + multiset{x}
    ensures SortedByStart([xs[0]] + rest)
  {
    assert xs == [xs[0]] + xs[1..];
    ConsSorted(xs[0], rest);
  }

  /** Inserts `x` in front of the first interval that does not start earlier. */
  function Insert(x: Interval, xs: seq<Interval>): (r: seq<Interval>)
    requires SortedByStart(xs)
    ensures multiset(r) == multiset(xs) + multiset{x}
    ensures r[0] == x || r[0] == xs[0]
    ensures SortedByStart(r)
  {
    if xs == [] || x.start <= xs[0].start then
      ConsSorted(x, xs);
      [x] + xs
    else
      var rest := Insert(x, xs[1..]);
      InsertBehindHead(x, xs, rest);
      [xs[0]] + rest
  }

  /**
    Sorts by start, keeping equal starts in input order (the order a stable
    `sort((a, b) => a.start - b.start)` produces).
  */
  function SortByStart(xs: seq<Interval>): (r: seq<Interval>)
    ensures multiset(r) == multiset(xs)
    ensures |r| == |xs|
    ensures SortedByStart(r)
  {
    if xs == [] then []
    else
      assert xs == [xs[0]] + xs[1..];
      Insert(xs[0], SortByStart(xs[1..]))
  }

  /** Sorting neither adds nor loses an interval. */
  lemma SortSameMembers(xs: seq<Interval>)
    ensures forall y :: y in SortByStart(xs) <==> y in xs
  {
    var r := SortByStart(xs);
    forall y
      ensures y in r <==> y in xs
    {
      assert y in r <==> y in multiset(r);
      assert y in xs <==> y in multiset(xs);
    }
  }

  lemma SortPreservesPositive(xs: seq<Interval>)
    ensures Positive(xs) ==> Positive(SortByStart(xs))
  {
    var s := SortByStart(xs);
    SortSameMembers(xs);
    forall i | 0 <= i < |s| && Positive(xs)
      ensures s[i].start < s[i].end
    {
      assert s[i] in xs;
      var j :| 0 <= j < |xs| && xs[j] == s[i];
    }
  }

  lemma {:induction false} SortSortedIsIdentity(xs: seq<Interval>)
    requires SortedByStart(xs)
    ensures SortByStart(xs) == xs
  {
    if xs != [] {
      SortSortedIsIdentity(xs[1..]);
      assert xs == [xs[0]] + xs[1..];
    }
  }

  lemma SortPreservesCovers(xs: seq<Interval>, t: int)
    ensures Covers(SortByStart(xs), t) <==> Covers(xs, t)
  {
    var s := SortByStart(xs);
    if Covers(s, t) {
      var i :| 0 <= i < |s| && Contains(s[i], t);
      assert s[i] in multiset(xs);
      var j :| 0 <= j < |xs| && xs[j] == s[i];
    }
    if Covers(xs, t) {
      var i :| 0 <= i < |xs| && Contains(xs[i], t);
      assert xs[i] in multiset(s);
      var j :| 0 <= j < |s| && s[j] == xs[i];
    }
  }

  lemma SortPreservesWellFormed(xs: seq<Interval>)
    ensures WellFormed(xs) ==> WellFormed(SortByStart(xs))
  {
    var s := SortByStart(xs);
    forall i | 0 <= i < |s| && WellFormed(xs)
      ensures s[i].start <= s[i].end
    {
      assert s[i] in multiset(xs);
      var j :| 0 <= j < |xs| && xs[j] == s[i];
    }
  }

  // ---------------------------------------------------------------------------
  // subtractOne
  // ---------------------------------------------------------------------------

  /** Removes block `[a, b)` from interval `[s, e)`, leaving at most two pieces. */
  function SubtractOne(iv: Interval, block: Interval): (r: seq<Interval>)
    ensures |r| <= 2
    ensures block.end <= iv.start || block.start >= iv.end ==> r == [iv]
    ensures iv.start < iv.end && block.start <= iv.start && block.end >= iv.end ==> r == []
    ensures forall p :: p in r ==> iv.start <= p.start && p.end <= iv.end && Disjoint(p, block)
    ensures iv.start <= iv.end ==> WellFormed(r)
    ensures forall t :: Covers(r, t) <==> Contains(iv, t) && !Contains(block, t)
  {
    var s, e, a, b := iv.start, iv.end, block.start, block.end;
    var r :=
      if b <= s || a >= e then [iv]
      else if a <= s && b >= e then []
      else if a <= s && b < e then [Interval(b, e)]
      else if a > s && b >= e then [Interval(s, a)]
      else [Interval(s, a), Interval(b, e)];
    assert forall t :: Covers(r, t) <==> Contains(iv, t) && !Contains(block, t) by {
      forall t ensures Covers(r, t) <==> Contains(iv, t) && !Contains(block, t) {
        if |r| == 1 {
          CoversCons(r[0], [], t);
          assert r == [r[0]] + [];
        } else if |r| == 2 {
          CoversCons(r[0], [r[1]], t);
          CoversCons(r[1], [], t);
          assert r == [r[0]] + [r[1]];
          assert [r[1]] == [r[1]] + [];
        }
      }
    }
    r
  }

  /** `subtractOne` applied to every interval of the list, pieces kept in order. */
  function SubtractAll(xs: seq<Interval>, block: Interval): (r: seq<Interval>)
    ensures WellFormed(xs) ==> WellFormed(r)
    ensures forall t :: Covers(r, t) <==> Covers(xs, t) && !Contains(block, t)
  {
    if xs == [] then []
    else
      var head := SubtractOne(xs[0], block);
      var rest := SubtractAll(xs[1..], block);
      assert forall t :: Covers(head + rest, t) <==> Covers(xs, t) && !Contains(block, t) by {
        forall t ensures Covers(head + rest, t) <==> Covers(xs, t) && !Contains(block, t) {
          CoversConcat(head, rest, t);
          CoversCons(xs[0], xs[1..], t);
          assert xs == [xs[0]] + xs[1..];
        }
      }
      head + rest
  }

  // ---------------------------------------------------------------------------
  // mergeIntervals
  // ---------------------------------------------------------------------------

  /**
    The fold of `mergeIntervals`: `cur` is the running last interval; the next
    interval is absorbed when it starts no later than `cur` ends.
  */
  function Coalesce(cur: Interval, rest: seq<Interval>): (r: seq<Interval>)
    requires SortedByStart(rest)
    requires rest == [] || cur.start <= rest[0].start
    ensures 1 <= |r| <= |rest| + 1
    ensures r[0].start == cur.start
    ensures SortedByStart(r)
    ensures Separated(r)
    ensures cur.start <= cur.end && WellFormed(rest) ==> WellFormed(r)
    ensures forall t :: Covers(r, t) <==> Contains(cur, t) || Covers(rest, t)
    decreases |rest|
  {
    if rest == [] then
      assert forall t :: Covers([cur], t) <==> Contains(cur, t) by {
        forall t ensures Covers([cur], t) <==> Contains(cur, t) {
          CoversCons(cur, [], t);
          assert [cur] == [cur] + [];
        }
      }
      [cur]
    else
      var next := rest[0];
      var tail := rest[1..];
      assert rest == [next] + tail;
      if next.start <= cur.end then
        var merged := Interval(cur.start, Max(cur.end, next.end));
        var r := Coalesce(merged, tail);
        assert forall t :: Covers(r, t) <==> Contains(cur, t) || Covers(rest, t) by {
          forall t ensures Covers(r, t) <==> Contains(cur, t) || Covers(rest, t) {
            CoversCons(next, tail, t);
          }
        }
        r
      else
        var after := Coalesce(next, tail);
        assert forall t :: Covers(after, t) <==> Covers(rest, t) by {
          forall t ensures Covers(after, t) <==> Covers(rest, t) {
            CoversCons(next, tail, t);
          }
        }
        KeepSeparate(cur, rest, after);
        [cur] + after
  }

  /**
    The fold's second case: `cur` ends before the rest begins, so it stays a
    separate interval in front of the folded rest.
  */
  lemma KeepSeparate(cur: Interval, rest: seq<Interval>, after: seq<Interval>)
    requires rest != [] && cur.start <= rest[0].start && cur.end < rest[0].start
    requires 1 <= |after| <= |rest| && after[0].start == rest[0].start
    requires SortedByStart(after) && Separated(after)
    requires WellFormed(rest) ==> WellFormed(after)
    requires forall t :: Covers(after, t) <==> Covers(rest, t)
    ensures SortedByStart([cur] + after) && Separated([cur] + after)
    ensures cur.start <= cur.end && WellFormed(rest) ==> WellFormed([cur] + after)
    ensures forall t :: Covers([cur] + after, t) <==> Contains(cur, t) || Covers(rest, t)
  {
    var r := [cur] + after;
    assert forall k :: 0 <= k < |after| ==> r[k + 1] == after[k];
    forall t ensures Covers(r, t) <==> Contains(cur, t) || Covers(rest, t) {
      CoversCons(cur, after, t);
    }
  }

  /**
    `mergeIntervals`: sorts by start and folds touching or overlapping
    intervals together. The result covers exactly the instants the input
    covers, is sorted, and no two consecutive intervals touch.
  */
  function MergeIntervals(xs: seq<Interval>): (r: seq<Interval>)
    ensures |r| <= |xs|
    ensures xs == [] <==> r == []
    ensures SortedByStart(r)
    ensures Separated(r)
    ensures WellFormed(xs) ==> WellFormed(r)
    ensures forall t :: Covers(r, t) <==> Covers(xs, t)
  {
    if xs == [] then []
    else
      var sorted := SortByStart(xs);
      assert |sorted| == |multiset(sorted)| == |xs|;
      assert sorted == [sorted[0]] + sorted[1..];
      SortPreservesWellFormed(xs);
      var r := Coalesce(sorted[0], sorted[1..]);
      assert forall t :: Covers(r, t) <==> Covers(xs, t) by {
        forall t ensures Covers(r, t) <==> Covers(xs, t) {
          CoversCons(sorted[0], sorted[1..], t);
          SortPreservesCovers(xs, t);
        }
      }
      r
  }

  /** Folding a separated list absorbs nothing. */
  lemma {:induction false} CoalesceSeparated(cur: Interval, rest: seq<Interval>)
    requires SortedByStart(rest)
    requires rest == [] || cur.start <= rest[0].start
    requires Separated([cur] + rest)
    ensures Coalesce(cur, rest) == [cur] + rest
    decreases |rest|
  {
    if rest != [] {
      var l := [cur] + rest;
      assert l[0] == cur && l[1] == rest[0];
      assert rest[0].start > cur.end;
      assert [rest[0]] + rest[1..] == rest;
      forall i | 0 < i < |rest|
        ensures rest[i - 1].end < rest[i].start
      {
        assert l[i] == rest[i - 1] && l[i + 1] == rest[i];
      }
      CoalesceSeparated(rest[0], rest[1..]);
      assert Coalesce(cur, rest) == [cur] + Coalesce(rest[0], rest[1..]);
    }
  }

  /** Merging is idempotent: a merged list is its own merge. */
  lemma MergeIdempotent(xs: seq<Interval>)
    ensures MergeIntervals(MergeIntervals(xs)) == MergeIntervals(xs)
  {
    var m := MergeIntervals(xs);
    if m != [] {
      SortSortedIsIdentity(m);
      assert m == [m[0]] + m[1..];
      CoalesceSeparated(m[0], m[1..]);
    }
  }
}

=== FILE: phone.dfy ===
/**
  The phone-number screen's pure string logic: the as-you-type formatter
  `formatPhoneNumber`, the validator `validatePhoneNumber`, and the submit
  handler's checks and normalisation to a `+`-prefixed number.
*/
module PhoneNumber {
  import opened Text
  import opened Wrappers

  function Min(a: int, b: int): int {
    if a <= b then a else b
  }

  // ---------------------------------------------------------------------------
  // Formatting
  // ---------------------------------------------------------------------------

  /** The display pattern of a US number; every `#` takes the next digit. */
  const Mask: string := "+# (###) ###-####"

  /** Number of digit slots in a pattern. */
  function Slots(mask: string): nat {
    if mask == [] then 0 else (if mask[0] == '#' then 1 else 0) + Slots(mask[1..])
  }

  /** Positions `a` up to `b` of the pattern are literals. */
  predicate LiteralsIn(mask: string, a: int, b: int)
    requires 0 <= a <= b <= |mask|
  {
    forall i :: a <= i < b ==> mask[i] != '#'
  }

  /** Positions `a` up to `b` of the pattern are digit slots. */
  predicate SlotsIn(mask: string, a: int, b: int)
    requires 0 <= a <= b <= |mask|
  {
    forall i :: a <= i < b ==> mask[i] == '#'
  }

  /**
    The layout of `Mask`, stated position by position: one literal, one slot,
    two literals, three slots, two literals, three slots, one literal, four
    slots.
  */
  predicate PhoneShape(mask: string) {
    |mask| == 17
    && LiteralsIn(mask, 0, 1) && SlotsIn(mask, 1, 2)
    && LiteralsIn(mask, 2, 4) && SlotsIn(mask, 4, 7)
    && LiteralsIn(mask, 7, 9) && SlotsIn(mask, 9, 12)
    && LiteralsIn(mask, 12, 13) && SlotsIn(mask, 13, 17)
  }

  /** No literal of the pattern is itself a digit. */
  predicate LiteralsAreNotDigits(mask: string) {
    forall i :: 0 <= i < |mask| && mask[i] != '#' ==> !IsDigit(mask[i])
  }

  /**
    Reference formatter: copy the pattern, putting the next digit at each `#`,
    and stop as soon as the digits or the pattern run out (so a trailing
    literal appears only once a digit follows it).
  */
  function Fill(mask: string, digits: string): string
    decreases |mask|
  {
    if digits == [] || mask == [] then []
    else if mask[0] == '#' then [digits[0]] + Fill(mask[1..], digits[1..])
    else [mask[0]] + Fill(mask[1..], digits)
  }

  /**
    `formatPhoneNumber(value)`: keeps the digits and lays out at most eleven
    of them as `+C (AAA) EEE-NNNN`, showing only the part typed so far.
  */
  function FormatPhoneNumber(value: string): (r: string)
    ensures r == [] <==> Digits(value) == []
    ensures r != [] ==> r[0] == '+'
  {
    Layout(Digits(value))
  }

  /** The formatter's case split on the number of digits `d` holds. */
  function Layout(d: string): string {
    if |d| <= 1 then
      (if d == [] then "" else "+" + d)
    else if |d| <= 4 then
      "+" + d[..1] + " (" + d[1..]
    else if |d| <= 7 then
      "+" + d[..1] + " (" + d[1..4] + ") " + d[4..]
    else
      "+" + d[..1] + " (" + d[1..4] + ") " + d[4..7] + "-" + d[7..Min(|d|, 11)]
  }

  /** A run of literals is copied as long as some digit remains. */
  lemma {:induction false} FillLiteralRun(mask: string, a: int, b: int, d: string)
    requires 0 <= a <= b <= |mask| && d != []
    requires LiteralsIn(mask, a, b)
    ensures Fill(mask[a..], d) == mask[a..b] + Fill(mask[b..], d)
    decreases b - a
  {
    if a == b {
      assert mask[a..b] == [];
    } else {
      assert mask[a..][1..] == mask[a + 1..];
      FillLiteralRun(mask, a + 1, b, d);
      assert mask[a..b] == [mask[a]] + mask[a + 1..b];
    }
  }

  /** A run of slots takes as many digits as it has slots, or all that remain. */
  lemma {:induction false} FillSlotRun(mask: string, a: int, b: int, d: string)
    requires 0 <= a <= b <= |mask|
    requires SlotsIn(mask, a, b)
    ensures |d| <= b - a ==> Fill(mask[a..], d) == d
    ensures |d| > b - a ==> Fill(mask[a..], d) == d[..b - a] + Fill(mask[b..], d[b - a..])
    decreases b - a
  {
    if a == b {
      assert d[..0] == [] && d[0..] == d;
    } else if d != [] {
      assert mask[a..][0] == '#' && mask[a..][1..] == mask[a + 1..];
      assert Fill(mask[a..], d) == [d[0]] + Fill(mask[a + 1..], d[1..]);
      FillSlotRun(mask, a + 1, b, d[1..]);
      if |d| > b - a {
        assert d[..b - a] == [d[0]] + d[1..][..b - a - 1];
        assert d[b - a..] == d[1..][b - a - 1..];
      } else {
        assert d == [d[0]] + d[1..];
      }
    }
  }

  // ---------------------------------------------------------------------------
  // Proof helpers with no counterpart in the program: regrouping string
  // concatenations and the shape of the fixed pattern `Mask`. Each is split
  // out only to keep the proofs that use it small.
  // ---------------------------------------------------------------------------

  lemma Assoc3(a: string, b: string, c: string)
    ensures a + b + c == a + (b + c)
  {
  }

  lemma Assoc4(a: string, b: string, c: string, e: string)
    ensures a + b + c + e == a + (b + (c + e))
  {
    Assoc3(a, b, c);
    Assoc3(a + b, c, e);
    Assoc3(a, b, c + e);
  }

  lemma Assoc6(a: string, b: string, c: string, d: string, e: string, f: string)
    ensures a + b + c + d + e + f == a + (b + (c + (d + (e + f))))
  {
    Assoc3(a + b + c + d, e, f);
    Assoc3(a + b + c, d, e + f);
    Assoc3(a + b, c, d + (e + f));
    Assoc3(a, b, c + (d + (e + f)));
  }

  lemma Assoc8(a: string, b: string, c: string, d: string, e: string, f: string, g: string, h: string)
    ensures a + b + c + d + e + f + g + h == a + (b + (c + (d + (e + (f + (g + h))))))
  {
    Assoc3(a + b + c + d + e + f, g, h);
    Assoc3(a + b + c + d + e, f, g + h);
    Assoc3(a + b + c + d, e, f + (g + h));
    Assoc3(a + b + c, d, e + (f + (g + h)));
    Assoc3(a + b, c, d + (e + (f + (g + h))));
    Assoc3(a, b, c + (d + (e + (f + (g + h)))));
  }

  /** The pieces of `Mask` between its slots. */
  lemma MaskPieces()
    ensures PhoneShape(Mask)
    ensures Mask[..1] == "+" && Mask[2..4] == " (" && Mask[7..9] == ") " && Mask[12..13] == "-"
  {
    MaskShape();
    MaskLiteralPieces();
  }

  lemma MaskShape()
    ensures PhoneShape(Mask)
  {
    assert |Mask| == 17;
    assert LiteralsIn(Mask, 0, 1) && SlotsIn(Mask, 1, 2);
    assert LiteralsIn(Mask, 2, 4) && SlotsIn(Mask, 4, 7);
    assert LiteralsIn(Mask, 7, 9) && SlotsIn(Mask, 9, 12);
    assert LiteralsIn(Mask, 12, 13) && SlotsIn(Mask, 13, 17);
  }

  lemma MaskLiteralPieces()
    ensures Mask[..1] == "+" && Mask[2..4] == " (" && Mask[7..9] == ") " && Mask[12..13] == "-"
  {
    assert Mask[..1] == "+";
    assert Mask[2..4] == " (";
    assert Mask[7..9] == ") ";
  }

  /** The slot count and the literals of `Mask`. */
  lemma MaskFacts()
    ensures Slots(Mask) == 11
    ensures LiteralsAreNotDigits(Mask)
  {
    MaskSlots();
    MaskLiterals();
  }

  lemma MaskSlots()
    ensures Slots(Mask) == 11
  {
    MaskPieces();
    SlotsOfPhoneShape(Mask);
  }

  lemma MaskLiterals()
    ensures LiteralsAreNotDigits(Mask)
  {
  }

  // ---------------------------------------------------------------------------
  // Filling the phone pattern
  // ---------------------------------------------------------------------------

  /** Filling through the country code, for any pattern of the phone shape. */
  lemma FillCountry(mask: string, d: string)
    requires PhoneShape(mask) && d != []
    ensures |d| == 1 ==> Fill(mask, d) == mask[..1] + d
    ensures |d| > 1 ==> Fill(mask, d) == mask[..1] + (d[..1] + (mask[2..4] + Fill(mask[4..], d[1..])))
  {
    assert mask[0..] == mask;
    FillLiteralRun(mask, 0, 1, d);
    FillSlotRun(mask, 1, 2, d);
    if |d| > 1 {
      FillLiteralRun(mask, 2, 4, d[1..]);
    }
  }

  /** Filling the area code and what follows it. */
  lemma FillArea(mask: string, e: string)
    requires PhoneShape(mask) && e != []
    ensures |e| <= 3 ==> Fill(mask[4..], e) == e
    ensures |e| > 3 ==> Fill(mask[4..], e) == e[..3] + (mask[7..9] + Fill(mask[9..], e[3..]))
  {
    FillSlotRun(mask, 4, 7, e);
    if |e| > 3 {
      FillLiteralRun(mask, 7, 9, e[3..]);
    }
  }

  /** The dash and four slots that end the pattern. */
  predicate LineShape(mask: string) {
    |mask| == 17 && LiteralsIn(mask, 12, 13) && SlotsIn(mask, 13, 17)
  }

  /** Filling the line number: the dash, then at most four digits. */
  lemma FillLine(mask: string, g: string)
    requires PhoneShape(mask) && g != []
    ensures Fill(mask[12..], g) == mask[12..13] + g[..Min(|g|, 4)]
  {
    assert LineShape(mask);
    FillLiteralRun(mask, 12, 13, g);
    if |g| <= 4 {
      FillShortLine(mask, g);
    } else {
      FillLongLine(mask, g);
    }
  }

  lemma FillShortLine(mask: string, g: string)
    requires LineShape(mask) && 0 < |g| <= 4
    ensures Fill(mask[13..], g) == g[..Min(|g|, 4)]
  {
    FillSlotRun(mask, 13, 17, g);
    assert g[..|g|] == g;
  }

  lemma FillLongLine(mask: string, g: string)
    requires LineShape(mask) && |g| > 4
    ensures Fill(mask[13..], g) == g[..Min(|g|, 4)]
  {
    FillSlotRun(mask, 13, 17, g);
    assert mask[17..] == [];
  }

  /** Filling the exchange and the line number. */
  lemma FillExchange(mask: string, f: string)
    requires PhoneShape(mask) && f != []
    ensures |f| <= 3 ==> Fill(mask[9..], f) == f
    ensures |f| > 3 ==> Fill(mask[9..], f) == f[..3] + (mask[12..13] + f[3..][..Min(|f| - 3, 4)])
  {
    FillSlotRun(mask, 9, 12, f);
    if |f| > 3 {
      FillLine(mask, f[3..]);
    }
  }

  /** Any pattern of the phone shape, filled, has the formatter's four forms. */
  lemma FillPhoneShape(mask: string, d: string)
    requires PhoneShape(mask)
    ensures |d| == 1 ==> Fill(mask, d) == mask[..1] + d
    ensures 2 <= |d| <= 4 ==> Fill(mask, d) == mask[..1] + d[..1] + mask[2..4] + d[1..]
    ensures 5 <= |d| <= 7 ==>
              Fill(mask, d) == mask[..1] + d[..1] + mask[2..4] + d[1..4] + mask[7..9] + d[4..]
    ensures 8 <= |d| ==>
              Fill(mask, d) == mask[..1] + d[..1] + mask[2..4] + d[1..4] + mask[7..9] + d[4..7]
                               + mask[12..13] + d[7..Min(|d|, 11)]
  {
    if d != [] {
      FillCountry(mask, d);
      if |d| > 1 {
        var e := d[1..];
        FillArea(mask, e);
        if |e| <= 3 {
          Assoc4(mask[..1], d[..1], mask[2..4], e);
        } else {
          var f := e[3..];
          assert e[..3] == d[1..4] && f == d[4..];
          FillExchange(mask, f);
          if |f| <= 3 {
            Assoc6(mask[..1], d[..1], mask[2..4], d[1..4], mask[7..9], f);
          } else {
            assert f[..3] == d[4..7] && f[3..][..Min(|f| - 3, 4)] == d[7..Min(|d|, 11)];
            Assoc8(mask[..1], d[..1], mask[2..4], d[1..4], mask[7..9], d[4..7], mask[12..13], d[7..Min(|d|, 11)]);
          }
        }
      }
    }
  }

  /** The formatter is the pattern filled with the input's digits. */
  lemma FormatFillsMask(value: string)
    ensures FormatPhoneNumber(value) == Fill(Mask, Digits(value))
  {
    MaskPieces();
    FillPhoneShape(Mask, Digits(value));
  }

  /** The digits of a filled pattern are the leading digits, one per slot. */
  lemma {:induction false} DigitsOfFill(mask: string, d: string)
    requires AllDigits(d)
    requires LiteralsAreNotDigits(mask)
    ensures Digits(Fill(mask, d)) == d[..Min(|d|, Slots(mask))]
    decreases |mask|
  {
    if d == [] || mask == [] {
    } else if mask[0] == '#' {
      DigitsOfFill(mask[1..], d[1..]);
      DigitsConcat([d[0]], Fill(mask[1..], d[1..]));
      assert d[..Min(|d|, Slots(mask))] == [d[0]] + d[1..][..Min(|d| - 1, Slots(mask[1..]))];
    } else {
      DigitsOfFill(mask[1..], d);
      DigitsConcat([mask[0]], Fill(mask[1..], d));
    }
  }

  /** The layout never looks past the eleventh digit. */
  lemma LayoutIgnoresExtraDigits(d: string)
    ensures Layout(d[..Min(|d|, 11)]) == Layout(d)
  {
    var t := d[..Min(|d|, 11)];
    if |d| > 11 {
      assert t[..1] == d[..1] && t[1..4] == d[1..4] && t[4..7] == d[4..7];
      assert t[7..Min(|t|, 11)] == d[7..Min(|d|, 11)];
    } else {
      assert t == d;
    }
  }

  /** Counting the slots run by run. */
  lemma {:induction false} SlotsOfRun(mask: string, a: int, b: int)
    requires 0 <= a <= b <= |mask|
    ensures LiteralsIn(mask, a, b) ==> Slots(mask[a..]) == Slots(mask[b..])
    ensures SlotsIn(mask, a, b) ==> Slots(mask[a..]) == (b - a) + Slots(mask[b..])
    decreases b - a
  {
    if a < b {
      assert mask[a..][1..] == mask[a + 1..];
      SlotsOfRun(mask, a + 1, b);
    }
  }

  lemma SlotsOfPhoneShape(mask: string)
    requires PhoneShape(mask)
    ensures Slots(mask) == 11
  {
    assert mask[0..] == mask;
    assert mask[17..] == [];
    SlotsOfRun(mask, 0, 1);
    SlotsOfRun(mask, 1, 2);
    SlotsOfRun(mask, 2, 4);
    SlotsOfRun(mask, 4, 7);
    SlotsOfRun(mask, 7, 9);
    SlotsOfRun(mask, 9, 12);
    SlotsOfRun(mask, 12, 13);
    SlotsOfRun(mask, 13, 17);
  }

  /** The formatted number shows exactly the first eleven digits typed. */
  lemma FormatKeepsLeadingDigits(value: string)
    ensures Digits(FormatPhoneNumber(value)) == Digits(value)[..Min(|Digits(value)|, 11)]
  {
    FormatFillsMask(value);
    MaskFacts();
    DigitsOfFill(Mask, Digits(value));
  }

  /** Re-formatting a formatted number changes nothing. */
  lemma FormatIdempotent(value: string)
    ensures FormatPhoneNumber(FormatPhoneNumber(value)) == FormatPhoneNumber(value)
  {
    FormatKeepsLeadingDigits(value);
    LayoutIgnoresExtraDigits(Digits(value));
  }

  // ---------------------------------------------------------------------------
  // Validation and submission
  // ---------------------------------------------------------------------------

  /** `validatePhoneNumber(phone)`: 10 digits (national) or 11 (with country code). */
  predicate ValidatePhoneNumber(phone: string) {
    |Digits(phone)| == 10 || |Digits(phone)| == 11
  }

  /** A formatted number is valid exactly when at least ten digits were typed. */
  lemma FormattedValidity(value: string)
    ensures ValidatePhoneNumber(FormatPhoneNumber(value)) <==> |Digits(value)| >= 10
  {
    FormatKeepsLeadingDigits(value);
  }

  /** The submit handler's normalisation: prefix `+1` to ten digits, `+` otherwise. */
  function Normalize(phone: string): (r: string)
    ensures |r| > 0 && r[0] == '+'
  {
    var d := Digits(phone);
    if |d| == 10 then "+1" + d else "+" + d
  }

  /** A non-digit sign followed by digits has exactly those digits. */
  lemma DigitsAfterSign(sign: string, x: string)
    requires |sign| == 1 && !IsDigit(sign[0]) && AllDigits(x)
    ensures Digits(sign + x) == x
  {
    DigitsConcat(sign, x);
    DigitsOfNonDigits(sign);
    DigitsOfDigits(x);
  }

  /** What the normalised number's digits are, for every input. */
  lemma NormalizeDigits(phone: string)
    ensures |Digits(phone)| == 10 ==> Digits(Normalize(phone)) == "1" + Digits(phone)
    ensures |Digits(phone)| != 10 ==> Digits(Normalize(phone)) == Digits(phone)
    ensures Normalize(phone) == "+" + Digits(Normalize(phone))
  {
    var d := Digits(phone);
    if |d| == 10 {
      var one := "1" + d;
      assert AllDigits(one) by {
        assert forall i :: 1 <= i < |one| ==> one[i] == d[i - 1];
      }
      assert "+1" + d == "+" + one;
      DigitsAfterSign("+", one);
    } else {
      DigitsAfterSign("+", d);
    }
  }

  /** A valid number normalises to `+` followed by eleven digits. */
  lemma NormalizedValidHasElevenDigits(phone: string)
    requires ValidatePhoneNumber(phone)
    ensures |Digits(Normalize(phone))| == 11
    ensures ValidatePhoneNumber(Normalize(phone))
  {
    NormalizeDigits(phone);
  }

  /** Normalising twice is normalising once. */
  lemma NormalizeIdempotent(phone: string)
    ensures Normalize(Normalize(phone)) == Normalize(phone)
  {
    NormalizeDigits(phone);
    NormalizeDigits(Normalize(phone));
  }

  /** The characters `String.prototype.trim` removes (white space and line terminators). */
  predicate IsJsWhitespace(c: char) {
    c == '\t' || c == '\n' || c == '\U{000B}' || c == '\U{000C}' || c == '\r' || c == ' '
    || c == '\U{00A0}' || c == '\U{1680}' || ('\U{2000}' <= c <= '\U{200A}')
    || c == '\U{2028}' || c == '\U{2029}' || c == '\U{202F}' || c == '\U{205F}'
    || c == '\U{3000}' || c == '\U{FEFF}'
  }

  /** `!s.trim()`: nothing but white space. */
  predicate IsBlank(s: string) {
    forall i :: 0 <= i < |s| ==> IsJsWhitespace(s[i])
  }

  const EmptyNumberMessage := "Please enter your phone number"
  const InvalidNumberMessage := "Please enter a valid phone number (10 or 11 digits)"
  const NotLoggedInMessage := "Please log in first"

  /**
    `handleSubmit`: the blank check, then validation, then the login check,
    each with its own error message; on success the number that is stored.
  */
  function SubmitPhoneNumber(phoneNumber: string, loggedIn: bool): (r: Result<string, string>)
    ensures r.Success? <==> !IsBlank(phoneNumber) && ValidatePhoneNumber(phoneNumber) && loggedIn
    ensures r.Failure? && IsBlank(phoneNumber) ==> r.error == EmptyNumberMessage
    ensures !IsBlank(phoneNumber) && !ValidatePhoneNumber(phoneNumber) ==> r == Failure(InvalidNumberMessage)
    ensures !IsBlank(phoneNumber) && ValidatePhoneNumber(phoneNumber) && !loggedIn ==> r == Failure(NotLoggedInMessage)
    ensures r.Success? ==> |r.value| > 0 && r.value[0] == '+' && |Digits(r.value)| == 11
    ensures r.Success? ==>
              Digits(r.value) == (if |Digits(phoneNumber)| == 10 then "1" else "") + Digits(phoneNumber)
  {
    if IsBlank(phoneNumber) then Failure(EmptyNumberMessage)
    else if !ValidatePhoneNumber(phoneNumber) then Failure(InvalidNumberMessage)
    else if !loggedIn then Failure(NotLoggedInMessage)
    else
      NormalizedValidHasElevenDigits(phoneNumber);
      NormalizeDigits(phoneNumber);
      assert "" + Digits(phoneNumber) == Digits(phoneNumber);
      Success(Normalize(phoneNumber))
  }

  /** A blank entry has no digits, so the blank check only picks the message. */
  lemma BlankIsInvalid(s: string)
    requires IsBlank(s)
    ensures !ValidatePhoneNumber(s)
  {
    DigitsOfNonDigits(s);
  }

  /**
    Submitting what the formatter produced: accepted exactly when at least ten
    digits were typed (and the user is logged in), storing `+1` and the first
    ten digits when only ten were typed, `+` and the first eleven otherwise.
  */
  lemma SubmitFormatted(value: string, loggedIn: bool)
    ensures SubmitPhoneNumber(FormatPhoneNumber(value), loggedIn).Success? <==>
              |Digits(value)| >= 10 && loggedIn
    ensures |Digits(value)| == 10 && loggedIn ==>
              SubmitPhoneNumber(FormatPhoneNumber(value), loggedIn) == Success("+1" + Digits(value))
    ensures |Digits(value)| >= 11 && loggedIn ==>
              SubmitPhoneNumber(FormatPhoneNumber(value), loggedIn) == Success("+" + Digits(value)[..11])
  {
    var f := FormatPhoneNumber(value);
    FormattedValidity(value);
    FormatKeepsLeadingDigits(value);
    if IsBlank(f) {
      BlankIsInvalid(f);
    }
    if |Digits(value)| == 10 {
      assert Digits(value)[..10] == Digits(value);
    }
  }
}

=== FILE: reservation.dfy ===
/**
  `removeScheduledBlocks` and `scheduleAndReserve`: each scheduled instant
  reserves the block `[t, t + minutes)`, which is cut out of the free
  intervals; the pieces are re-merged after every block and filtered to the
  five-minute minimum at the end.
*/
module Reservation {
  import opened Intervals
  import opened Scheduler

  /** The block a reminder at `t` occupies. */
  function Block(t: int, blockMs: int): Interval {
    Interval(t, t + blockMs)
  }

  /** Some scheduled instant's block contains `t`. */
  predicate InSomeBlock(ts: seq<int>, blockMs: int, t: int) {
    exists k :: 0 <= k < |ts| && Contains(Block(ts[k], blockMs), t)
  }

  lemma InSomeBlockCons(ts: seq<int>, blockMs: int, t: int)
    requires ts != []
    ensures InSomeBlock(ts, blockMs, t) <==> Contains(Block(ts[0], blockMs), t) || InSomeBlock(ts[1..], blockMs, t)
  {
    if InSomeBlock(ts, blockMs, t) {
      var k :| 0 <= k < |ts| && Contains(Block(ts[k], blockMs), t);
      if k > 0 {
        assert ts[1..][k - 1] == ts[k];
      }
    }
    if InSomeBlock(ts[1..], blockMs, t) {
      var k :| 0 <= k < |ts[1..]| && Contains(Block(ts[1..][k], blockMs), t);
      assert ts[k + 1] == ts[1..][k];
    }
  }

  /**
    The loop over the scheduled instants: subtract each block from every
    current interval, then merge the pieces. With no instants the input comes
    back untouched (and unmerged); otherwise the result is sorted with no two
    intervals touching. Either way it covers exactly the input's instants
    outside every block.
  */
  function ApplyBlocks(current: seq<Interval>, ts: seq<int>, blockMs: int): (r: seq<Interval>)
    ensures ts == [] ==> r == current
    ensures ts != [] ==> SortedByStart(r) && Separated(r)
    ensures WellFormed(current) ==> WellFormed(r)
    ensures forall t :: Covers(r, t) <==> Covers(current, t) && !InSomeBlock(ts, blockMs, t)
    decreases |ts|
  {
    if ts == [] then current
    else
      var next := MergeIntervals(SubtractAll(current, Block(ts[0], blockMs)));
      var r := ApplyBlocks(next, ts[1..], blockMs);
      assert forall t :: Covers(r, t) <==> Covers(current, t) && !InSomeBlock(ts, blockMs, t) by {
        forall t
          ensures Covers(r, t) <==> Covers(current, t) && !InSomeBlock(ts, blockMs, t)
        {
          InSomeBlockCons(ts, blockMs, t);
        }
      }
      r
  }

  /**
    `removeScheduledBlocks(freeTimes, scheduledTimes, minutes)`: whatever the
    block length, every interval it keeps is at least five minutes long.
  */
  function RemoveScheduledBlocks(free: seq<Interval>, ts: seq<int>, minutes: int): (r: seq<Interval>)
    ensures forall p :: p in r ==> LongEnough(p)
  {
    KeepLong(ApplyBlocks(free, ts, minutes * MinuteMs))
  }

  /** Every instant of a kept interval was free and lies in no reserved block. */
  lemma RemovedKeepsOnlyFreeTime(free: seq<Interval>, ts: seq<int>, minutes: int)
    ensures forall p, t :: p in RemoveScheduledBlocks(free, ts, minutes) && Contains(p, t) ==>
              Covers(free, t) && !InSomeBlock(ts, minutes * MinuteMs, t)
  {
    var applied := ApplyBlocks(free, ts, minutes * MinuteMs);
    forall p, t | p in RemoveScheduledBlocks(free, ts, minutes) && Contains(p, t)
      ensures Covers(free, t) && !InSomeBlock(ts, minutes * MinuteMs, t)
    {
      assert p in applied;
      var i :| 0 <= i < |applied| && applied[i] == p;
      assert Covers(applied, t);
    }
  }

  /** With blocks of positive length, no kept interval overlaps any block. */
  lemma RemovedAvoidsBlocks(free: seq<Interval>, ts: seq<int>, minutes: int)
    requires minutes > 0
    ensures forall p, k :: p in RemoveScheduledBlocks(free, ts, minutes) && 0 <= k < |ts| ==>
              Disjoint(p, Block(ts[k], minutes * MinuteMs))
  {
    var blockMs := minutes * MinuteMs;
    RemovedKeepsOnlyFreeTime(free, ts, minutes);
    forall p, k | p in RemoveScheduledBlocks(free, ts, minutes) && 0 <= k < |ts|
      ensures Disjoint(p, Block(ts[k], blockMs))
    {
      var b := Block(ts[k], blockMs);
      if !Disjoint(p, b) {
        var t := Max(p.start, b.start);
        assert Contains(p, t) && Contains(b, t);
        assert false;
      }
    }
  }

  /** The kept intervals stay in free-time order, strictly if the input was strict. */
  lemma RemovedOrdered(free: seq<Interval>, ts: seq<int>, minutes: int)
    requires WellFormed(free)
    ensures Ordered(free) ==> Ordered(RemoveScheduledBlocks(free, ts, minutes))
    ensures StrictlyOrdered(free) ==> StrictlyOrdered(RemoveScheduledBlocks(free, ts, minutes))
  {
    var applied := ApplyBlocks(free, ts, minutes * MinuteMs);
    if ts != [] {
      SeparatedIsStrictlyOrdered(applied);
    }
    KeepLongOrdered(applied);
  }

  /**
    A non-empty interval all of whose instants a strictly ordered free list
    covers lies inside a single interval of that list.
  */
  lemma ContainedInOne(free: seq<Interval>, p: Interval)
    requires WellFormed(free) && StrictlyOrdered(free)
    requires p.start < p.end
    requires forall t :: Contains(p, t) ==> Covers(free, t)
    ensures exists j :: 0 <= j < |free| && free[j].start <= p.start && p.end <= free[j].end
  {
    assert Contains(p, p.start);
    var j :| 0 <= j < |free| && Contains(free[j], p.start);
    if p.end > free[j].end {
      var t := free[j].end;
      assert Contains(p, t);
      assert false;
    }
  }

  /**
    On a strictly ordered free list each kept interval lies inside one input
    interval. (Touching input intervals can be merged into one that spans
    both, so strictness is needed.)
  */
  lemma RemovedWithinOneInterval(free: seq<Interval>, ts: seq<int>, minutes: int)
    requires WellFormed(free) && StrictlyOrdered(free)
    ensures forall p :: p in RemoveScheduledBlocks(free, ts, minutes) ==>
              exists j :: 0 <= j < |free| && free[j].start <= p.start && p.end <= free[j].end
  {
    RemovedKeepsOnlyFreeTime(free, ts, minutes);
    forall p | p in RemoveScheduledBlocks(free, ts, minutes)
      ensures exists j :: 0 <= j < |free| && free[j].start <= p.start && p.end <= free[j].end
    {
      ContainedInOne(free, p);
    }
  }

  /**
    The converse of `RemovedKeepsOnlyFreeTime`: a run of at least five minutes
    that is free and meets no reserved block survives the removal. Without any
    block the input is returned unmerged, so it must then be strictly ordered
    for the run to sit inside one interval.
  */
  lemma RemovedKeepsLongFreeRuns(free: seq<Interval>, ts: seq<int>, minutes: int, x: int, y: int)
    requires WellFormed(free) && (ts != [] || StrictlyOrdered(free))
    requires y - x >= MinKeepMs
    requires forall t :: x <= t < y ==> Covers(free, t) && !InSomeBlock(ts, minutes * MinuteMs, t)
    ensures forall t :: x <= t < y ==> Covers(RemoveScheduledBlocks(free, ts, minutes), t)
  {
    var applied := ApplyBlocks(free, ts, minutes * MinuteMs);
    var r := RemoveScheduledBlocks(free, ts, minutes);
    if ts != [] {
      SeparatedIsStrictlyOrdered(applied);
    }
    var run := Interval(x, y);
    forall t | Contains(run, t)
      ensures Covers(applied, t)
    {
      assert x <= t < y;
    }
    ContainedInOne(applied, run);
    var j :| 0 <= j < |applied| && applied[j].start <= x && y <= applied[j].end;
    assert LongEnough(applied[j]);
    assert applied[j] in r;
    var i :| 0 <= i < |r| && r[i] == applied[j];
    forall t | x <= t < y
      ensures Covers(r, t)
    {
      assert Contains(r[i], t);
    }
  }

  /** When the reserved blocks cover every free instant, no free interval is left. */
  lemma FullyReservedLeavesNothing(free: seq<Interval>, ts: seq<int>, minutes: int)
    requires forall t :: Covers(free, t) ==> InSomeBlock(ts, minutes * MinuteMs, t)
    ensures RemoveScheduledBlocks(free, ts, minutes) == []
  {
    var r := RemoveScheduledBlocks(free, ts, minutes);
    RemovedKeepsOnlyFreeTime(free, ts, minutes);
    if r != [] {
      assert r[0] in r;
      assert Contains(r[0], r[0].start);
      assert false;
    }
  }

  /**
    `scheduleAndReserve(freeTimes, numEvents, minutesPerEvent)`: the instants
    of `scheduleEventsEvenly` and the free list with their blocks removed.
  */
  method ScheduleAndReserve(free: seq<Interval>, numEvents: int, minutesPerEvent: int)
    returns (scheduled: seq<int>, updated: seq<Interval>)
    ensures updated == RemoveScheduledBlocks(free, scheduled, minutesPerEvent)
    ensures numEvents <= 0 || free == [] ==> scheduled == [] && updated == KeepLong(free)
    ensures numEvents > 0 ==> |scheduled| <= numEvents
    ensures WellFormed(free) && free != [] && numEvents > 0 ==> |scheduled| == numEvents
    ensures WellFormed(free) && numEvents > 0 ==>
              forall k :: 0 <= k < |scheduled| ==> EvenlyPlaced(free, numEvents, k, scheduled[k])
    ensures forall p :: p in updated ==> LongEnough(p)
    ensures forall p, t :: p in updated && Contains(p, t) ==>
              Covers(free, t) && !InSomeBlock(scheduled, minutesPerEvent * MinuteMs, t)
    ensures minutesPerEvent > 0 ==> forall p, k :: p in updated && 0 <= k < |scheduled| ==>
              Disjoint(p, Block(scheduled[k], minutesPerEvent * MinuteMs))
    ensures WellFormed(free) && Ordered(free) ==> Ordered(updated)
  {
    scheduled := ScheduleEventsEvenly(free, numEvents);
    updated := RemoveScheduledBlocks(free, scheduled, minutesPerEvent);
    RemovedKeepsOnlyFreeTime(free, scheduled, minutesPerEvent);
    if minutesPerEvent > 0 {
      RemovedAvoidsBlocks(free, scheduled, minutesPerEvent);
    }
    if WellFormed(free) {
      RemovedOrdered(free, scheduled, minutesPerEvent);
    }
  }

  // ---------------------------------------------------------------------------
  // Worked example: two five-minute reminders in a ten-minute window
  // ---------------------------------------------------------------------------

  /** The only evenly placed pair in `[D0, D0 + 10m)` is `D0` and `D0 + 5m`. */
  lemma TwoInTenMinutesPlaced(d0: int, a: int, b: int)
    requires EvenlyPlaced([Interval(d0, d0 + 10 * MinuteMs)], 2, 0, a)
    requires EvenlyPlaced([Interval(d0, d0 + 10 * MinuteMs)], 2, 1, b)
    ensures a == d0 && b == d0 + 5 * MinuteMs
  {
    var free := [Interval(d0, d0 + 10 * MinuteMs)];
    assert TotalDuration(free) == 10 * MinuteMs;
    assert Step(free, 2) == (5 * MinuteMs) as real;
    assert Target(1, Step(free, 2)) == (5 * MinuteMs) as real;
    var ja :| 0 <= ja < |free| && PlacedAt(free, ja, Target(0, Step(free, 2)), a);
    var jb :| 0 <= jb < |free| && PlacedAt(free, jb, Target(1, Step(free, 2)), b);
    assert ja == 0 && jb == 0;
  }

  /** Both five-minute blocks together use up the ten minutes: nothing stays free. */
  lemma TwoInTenMinutesReserved(d0: int)
    ensures RemoveScheduledBlocks([Interval(d0, d0 + 10 * MinuteMs)], [d0, d0 + 5 * MinuteMs], 5) == []
  {
    var free := [Interval(d0, d0 + 10 * MinuteMs)];
    var ts := [d0, d0 + 5 * MinuteMs];
    forall t | Covers(free, t)
      ensures InSomeBlock(ts, 5 * MinuteMs, t)
    {
      var k := if t < d0 + 5 * MinuteMs then 0 else 1;
      assert Contains(Block(ts[k], 5 * MinuteMs), t);
    }
    FullyReservedLeavesNothing(free, ts, 5);
  }
}

=== FILE: scheduler.dfy ===
/**
  `scheduleEventsEvenly`: places N instants across a list of free intervals,
  spaced evenly by cumulative free duration rather than by wall-clock time.
  The step `totalFreeMs / numEvents` is kept as an exact `real`.
*/
module Scheduler {
  import opened Intervals

  /** Total duration of the first `n` intervals: the scheduler's `timeAccum`. */
  function Prefix(xs: seq<Interval>, n: nat): int
    requires n <= |xs|
  {
    if n == 0 then 0 else Prefix(xs, n - 1) + Duration(xs[n - 1])
  }

  /** `totalFreeMs`, summed left to right as the program's `reduce` does. */
  function TotalDuration(xs: seq<Interval>): int {
    Prefix(xs, |xs|)
  }

  /**
    The k-th target free-time offset, `k * intervalMs`, written as k
    repeated additions of the step (equal in exact arithmetic; see
    `TargetIsProduct`).
  */
  function Target(k: nat, step: real): real {
    if k == 0 then 0.0 else Target(k - 1, step) + step
  }

  lemma {:induction false} TargetIsProduct(k: nat, step: real)
    ensures Target(k, step) == k as real * step
  {
    if k > 0 {
      TargetIsProduct(k - 1, step);
    }
  }

  /** `intervalMs = totalFreeMs / numEvents`, in exact arithmetic. */
  function Step(free: seq<Interval>, numEvents: int): real
    requires numEvents > 0
  {
    TotalDuration(free) as real / numEvents as real
  }

  /**
    `new Date(ms)` keeps the integer part of a fractional millisecond count,
    rounding toward zero.
  */
  function TruncMs(x: real): (r: int)
    ensures x >= 0.0 ==> r as real <= x < r as real + 1.0
    ensures x < 0.0 ==> r as real - 1.0 < x <= r as real
  {
    if x >= 0.0 then x.Floor else -((-x).Floor)
  }

  lemma TruncBetween(x: real, lo: int, hi: int)
    requires lo as real <= x <= hi as real
    ensures lo <= TruncMs(x) <= hi
  {
  }

  lemma TruncMonotone(x: real, y: real)
    requires x <= y
    ensures TruncMs(x) <= TruncMs(y)
  {
  }

  predicate NonDecreasing(s: seq<int>) {
    forall i, j :: 0 <= i < j < |s| ==> s[i] <= s[j]
  }

  /**
    `instant` is the point at free-time offset `x` (cumulative free duration
    from the first interval's start), found in interval `j`: the first
    interval whose cumulative end reaches `x`.
  */
  predicate PlacedAt(free: seq<Interval>, j: int, x: real, instant: int)
    requires 0 <= j < |free|
  {
    && Prefix(free, j) as real <= x
    && (j > 0 ==> Prefix(free, j) as real < x)
    && x <= Prefix(free, j + 1) as real
    && instant == TruncMs(free[j].start as real + (x - Prefix(free, j) as real))
  }

  /**
    `instant` is where the k-th of `numEvents` evenly spaced instants belongs:
    at free-time offset `Target(k, Step(free, numEvents))`.
  */
  predicate EvenlyPlaced(free: seq<Interval>, numEvents: int, k: nat, instant: int)
    requires numEvents > 0
  {
    exists j :: 0 <= j < |free| && PlacedAt(free, j, Target(k, Step(free, numEvents)), instant)
  }

  /** Some free interval contains `t`, end points included. */
  predicate InSomeFree(free: seq<Interval>, t: int) {
    exists j :: 0 <= j < |free| && free[j].start <= t <= free[j].end
  }

  lemma {:induction false} PrefixNonNegative(xs: seq<Interval>, n: nat)
    requires n <= |xs| && WellFormed(xs)
    ensures Prefix(xs, n) >= 0
  {
    if n > 0 {
      PrefixNonNegative(xs, n - 1);
    }
  }

  /** The k-th target offset never passes the total free duration. */
  lemma StepFacts(total: int, n: int, i: int)
    requires n > 0 && total >= 0 && 0 <= i < n
    ensures 0.0 <= total as real / n as real
    ensures i as real * (total as real / n as real) <= total as real
  {
    var st := total as real / n as real;
    assert st * n as real == total as real;
    assert 0.0 <= st;
    assert i as real * st <= n as real * st;
  }

  /**
    The inner `while` of the scheduler: skips every interval whose cumulative
    end falls short of `target`, stopping at the first one that reaches it
    or past the last interval.
  */
  method SkipTo(free: seq<Interval>, idx0: int, acc0: int, target: real) returns (idx: int, acc: int)
    requires 0 <= idx0 < |free| && acc0 == Prefix(free, idx0)
    ensures idx0 <= idx <= |free| && acc == Prefix(free, idx)
    ensures idx < |free| ==> target <= (acc + Duration(free[idx])) as real
    ensures idx > idx0 || idx == |free| ==> (acc as real) < target
    ensures WellFormed(free) && Ordered(free) && idx < |free| ==>
              free[idx0].start - acc0 <= free[idx].start - acc
  {
    idx, acc := idx0, acc0;
    while idx < |free| && ((acc + Duration(free[idx])) as real) < target
      invariant idx0 <= idx <= |free|
      invariant acc == Prefix(free, idx)
      invariant idx > idx0 ==> (acc as real) < target
      invariant WellFormed(free) && Ordered(free) && idx < |free| ==>
                  free[idx0].start - acc0 <= free[idx].start - acc
      decreases |free| - idx
    {
      acc := acc + Duration(free[idx]);
      idx := idx + 1;
    }
  }

  lemma {:induction false} PrefixMonotone(xs: seq<Interval>, m: nat, n: nat)
    requires m <= n <= |xs| && WellFormed(xs)
    ensures Prefix(xs, m) <= Prefix(xs, n)
    decreases n - m
  {
    if m < n {
      PrefixMonotone(xs, m, n - 1);
    }
  }

  lemma {:induction false} TargetMonotone(k1: nat, k2: nat, step: real)
    requires k1 <= k2 && 0.0 <= step
    ensures Target(k1, step) <= Target(k2, step)
    decreases k2
  {
    if k1 < k2 {
      TargetMonotone(k1, k2 - 1, step);
    }
  }

  /** An instant placed at a free-time offset lies in its interval, end points included. */
  lemma PlacedWithin(free: seq<Interval>, j: int, x: real, instant: int)
    requires 0 <= j < |free| && PlacedAt(free, j, x, instant)
    ensures free[j].start <= instant <= free[j].end
  {
    TruncBetween(free[j].start as real + (x - Prefix(free, j) as real), free[j].start, free[j].end);
  }

  /** Every evenly placed instant lies inside some free interval. */
  lemma EvenlyPlacedIsFree(free: seq<Interval>, numEvents: int, k: nat, instant: int)
    requires numEvents > 0 && EvenlyPlaced(free, numEvents, k, instant)
    ensures InSomeFree(free, instant)
  {
    var j :| 0 <= j < |free| && PlacedAt(free, j, Target(k, Step(free, numEvents)), instant);
    PlacedWithin(free, j, Target(k, Step(free, numEvents)), instant);
  }

  lemma StepNonNegative(free: seq<Interval>, numEvents: int)
    requires numEvents > 0 && WellFormed(free)
    ensures 0.0 <= Step(free, numEvents)
  {
    PrefixNonNegative(free, |free|);
    StepFacts(TotalDuration(free), numEvents, 0);
  }

  /** Two offsets placed in the same interval keep their order. */
  lemma SameIntervalInOrder(free: seq<Interval>, j: int, x1: real, x2: real, a: int, b: int)
    requires 0 <= j < |free| && x1 <= x2
    requires PlacedAt(free, j, x1, a) && PlacedAt(free, j, x2, b)
    ensures a <= b
  {
    TruncMonotone(free[j].start as real + (x1 - Prefix(free, j) as real),
                  free[j].start as real + (x2 - Prefix(free, j) as real));
  }

  /** A later offset is never placed in an earlier interval. */
  lemma PlacedIntervalsInOrder(free: seq<Interval>, j1: int, j2: int, x1: real, x2: real, a: int, b: int)
    requires WellFormed(free) && 0 <= j1 < |free| && 0 <= j2 < |free| && x1 <= x2
    requires PlacedAt(free, j1, x1, a) && PlacedAt(free, j2, x2, b)
    ensures j1 <= j2
  {
    if j1 > j2 {
      PrefixMonotone(free, j2 + 1, j1);
    }
  }

  /**
    On ordered, well-formed free intervals a later offset never maps to an
    earlier instant: evenly placed instants are in time order.
  */
  lemma EvenlyPlacedInOrder(free: seq<Interval>, numEvents: int, k1: nat, k2: nat, a: int, b: int)
    requires numEvents > 0 && WellFormed(free) && Ordered(free) && k1 <= k2
    requires EvenlyPlaced(free, numEvents, k1, a) && EvenlyPlaced(free, numEvents, k2, b)
    ensures a <= b
  {
    var step := Step(free, numEvents);
    StepNonNegative(free, numEvents);
    TargetMonotone(k1, k2, step);
    var x1, x2 := Target(k1, step), Target(k2, step);
    var j1 :| 0 <= j1 < |free| && PlacedAt(free, j1, x1, a);
    var j2 :| 0 <= j2 < |free| && PlacedAt(free, j2, x2, b);
    PlacedIntervalsInOrder(free, j1, j2, x1, x2, a, b);
    if j1 < j2 {
      PlacedWithin(free, j1, x1, a);
      PlacedWithin(free, j2, x2, b);
      assert free[j1].end <= free[j2].start;
    } else {
      SameIntervalInOrder(free, j1, x1, x2, a, b);
    }
  }

  /** An offset inside interval `idx`'s share of the free time is placed in it. */
  lemma PlaceAtOffset(free: seq<Interval>, idx: int, acc: int, x: real)
    requires 0 <= idx < |free| && acc == Prefix(free, idx) && 0 <= acc
    requires idx > 0 ==> (acc as real) < x
    requires 0.0 <= x <= (acc + Duration(free[idx])) as real
    ensures PlacedAt(free, idx, x, TruncMs(free[idx].start as real + (x - acc as real)))
  {
    assert Prefix(free, idx + 1) == acc + Duration(free[idx]);
  }

  /**
    The instant placed for a target that falls inside interval `idx` is
    evenly placed.
  */
  lemma PlaceInInterval(free: seq<Interval>, numEvents: int, i: nat, idx: int, acc: int)
    requires WellFormed(free) && numEvents > 0
    requires 0 <= idx < |free| && acc == Prefix(free, idx)
    requires idx > 0 ==> (acc as real) < Target(i, Step(free, numEvents))
    requires 0.0 <= Target(i, Step(free, numEvents)) <= (acc + Duration(free[idx])) as real
    ensures EvenlyPlaced(free, numEvents, i,
              TruncMs(free[idx].start as real + (Target(i, Step(free, numEvents)) - acc as real)))
  {
    var target := Target(i, Step(free, numEvents));
    PrefixNonNegative(free, idx);
    PlaceAtOffset(free, idx, acc, target);
  }

  /** Before the last event, the target offset never passes the total free time. */
  lemma TargetBelowTotal(free: seq<Interval>, numEvents: int, i: nat)
    requires numEvents > 0 && WellFormed(free) && i < numEvents
    ensures Target(i, Step(free, numEvents)) <= Prefix(free, |free|) as real
  {
    PrefixNonNegative(free, |free|);
    StepFacts(TotalDuration(free), numEvents, i);
    TargetIsProduct(i, Step(free, numEvents));
  }

  /** A list of evenly placed instants is free, and in order on ordered intervals. */
  lemma EvenlyPlacedList(free: seq<Interval>, numEvents: int, scheduled: seq<int>)
    requires numEvents > 0 && WellFormed(free)
    requires forall k :: 0 <= k < |scheduled| ==> EvenlyPlaced(free, numEvents, k, scheduled[k])
    ensures forall k :: 0 <= k < |scheduled| ==> InSomeFree(free, scheduled[k])
    ensures Ordered(free) ==> NonDecreasing(scheduled)
  {
    forall k | 0 <= k < |scheduled|
      ensures InSomeFree(free, scheduled[k])
    {
      EvenlyPlacedIsFree(free, numEvents, k, scheduled[k]);
    }
    if Ordered(free) {
      forall k1, k2 | 0 <= k1 < k2 < |scheduled|
        ensures scheduled[k1] <= scheduled[k2]
      {
        EvenlyPlacedInOrder(free, numEvents, k1, k2, scheduled[k1], scheduled[k2]);
      }
    }
  }

  /**
    `scheduleEventsEvenly(freeTimes, numEvents)`. Nothing is placed for a
    non-positive count or an empty list, and never more than `numEvents`
    instants. On well-formed intervals the k-th instant sits at free-time
    offset `Target(k, total / numEvents)`, so exactly `numEvents` are placed (the
    early stop is unreachable in exact arithmetic), the first is the first
    interval's start, and each lies within some interval, end points
    included. On ordered intervals the instants never go back in time.
  */
  method ScheduleEventsEvenly(free: seq<Interval>, numEvents: int) returns (scheduled: seq<int>)
    ensures numEvents <= 0 || free == [] ==> scheduled == []
    ensures numEvents > 0 ==> |scheduled| <= numEvents
    ensures WellFormed(free) && free != [] && numEvents > 0 ==> |scheduled| == numEvents && scheduled[0] == free[0].start
    ensures WellFormed(free) && numEvents > 0 ==>
              forall k :: 0 <= k < |scheduled| ==> EvenlyPlaced(free, numEvents, k, scheduled[k])
    ensures WellFormed(free) ==> forall k :: 0 <= k < |scheduled| ==> InSomeFree(free, scheduled[k])
    ensures WellFormed(free) && Ordered(free) ==> NonDecreasing(scheduled)
  {
    if numEvents <= 0 || |free| == 0 {
      return [];
    }
    var step := Step(free, numEvents);
    var acc := 0;
    var idx := 0;
    var i := 0;
    scheduled := [];
    ghost var wf := WellFormed(free);
    if wf {
      PrefixNonNegative(free, |free|);
      StepFacts(TotalDuration(free), numEvents, 0);
    }
    while i < numEvents
      invariant 0 <= i <= numEvents
      invariant 0 <= idx < |free|
      invariant i == 0 ==> idx == 0
      invariant acc == Prefix(free, idx)
      invariant |scheduled| == i
      invariant wf ==> 0.0 <= step && 0.0 <= Target(i, step)
      invariant wf && idx > 0 ==> (acc as real) < Target(i, step)
      invariant wf ==> forall k :: 0 <= k < i ==> EvenlyPlaced(free, numEvents, k, scheduled[k])
      invariant wf && i > 0 ==> scheduled[0] == free[0].start
    {
      var target := Target(i, step);
      idx, acc := SkipTo(free, idx, acc, target);
      if idx >= |free| {
        // Every interval was passed: the target lies beyond the total, which
        // well-formed input never allows.
        assert !wf by {
          if wf {
            TargetBelowTotal(free, numEvents, i);
          }
        }
        break;
      }
      var offset := target - acc as real;
      var t := TruncMs(free[idx].start as real + offset);
      if wf {
        PlaceInInterval(free, numEvents, i, idx, acc);
        if i == 0 {
          PrefixNonNegative(free, idx);
          assert idx == 0 && offset == 0.0;
        }
      }
      ghost var before := scheduled;
      scheduled := scheduled + [t];
      assert forall k :: 0 <= k < i ==> scheduled[k] == before[k];
      assert scheduled[i] == t;
      assert Target(i + 1, step) == target + step;
      i := i + 1;
    }
    if wf {
      EvenlyPlacedList(free, numEvents, scheduled);
    }
  }

  /**
    A target that lands exactly where an interval's free time runs out is
    placed at that interval's end, not at the next interval's start: with ten
    free minutes before and after a ten-minute gap, the second of two
    instants is the end of the first interval, an instant no half-open free
    interval contains.
  */
  lemma SecondOfTwoAtFirstEnd(d0: int, b: int)
    requires EvenlyPlaced([Interval(d0, d0 + 10 * MinuteMs), Interval(d0 + 20 * MinuteMs, d0 + 30 * MinuteMs)], 2, 1, b)
    ensures b == d0 + 10 * MinuteMs
    ensures !Covers([Interval(d0, d0 + 10 * MinuteMs), Interval(d0 + 20 * MinuteMs, d0 + 30 * MinuteMs)], b)
  {
    var free := [Interval(d0, d0 + 10 * MinuteMs), Interval(d0 + 20 * MinuteMs, d0 + 30 * MinuteMs)];
    assert Prefix(free, 1) == 10 * MinuteMs;
    assert TotalDuration(free) == 20 * MinuteMs;
    assert Target(1, Step(free, 2)) == (10 * MinuteMs) as real;
    var j :| 0 <= j < |free| && PlacedAt(free, j, Target(1, Step(free, 2)), b);
    assert j == 0;
  }
}

=== FILE: text.dfy ===
/**
  String helpers shared by the phone-number screen and the message bot:
  `s.replace(/\D/g, '')` (keep only the ASCII digits) and `s.includes(sub)`.
*/
module Text {

  /** `\D` in a regular expression without the `u` flag: anything but `0`-`9`. */
  predicate IsDigit(c: char) {
    '0' <= c <= '9'
  }

  predicate AllDigits(s: string) {
    forall i :: 0 <= i < |s| ==> IsDigit(s[i])
  }

  /** `s.replace(/\D/g, '')`: the digits of `s`, in order. */
  function Digits(s: string): (r: string)
    ensures |r| <= |s|
    ensures AllDigits(r)
  {
    if s == [] then []
    else if IsDigit(s[0]) then [s[0]] + Digits(s[1..])
    else Digits(s[1..])
  }

  /** Filtering distributes over concatenation. */
  lemma {:induction false} DigitsConcat(a: string, b: string)
    ensures Digits(a + b) == Digits(a) + Digits(b)
    decreases |a|
  {
    if a == [] {
      assert a + b == b;
    } else {
      assert (a + b)[1..] == a[1..] + b;
      DigitsConcat(a[1..], b);
    }
  }

  /** A string of digits is its own digit string. */
  lemma {:induction false} DigitsOfDigits(s: string)
    requires AllDigits(s)
    ensures Digits(s) == s
    decreases |s|
  {
    if s != [] {
      DigitsOfDigits(s[1..]);
    }
  }

  /** A string with no digits filters to nothing. */
  lemma {:induction false} DigitsOfNonDigits(s: string)
    requires forall i :: 0 <= i < |s| ==> !IsDigit(s[i])
    ensures Digits(s) == []
    decreases |s|
  {
    if s != [] {
      DigitsOfNonDigits(s[1..]);
    }
  }

  /** Removing the non-digits twice is the same as removing them once. */
  lemma DigitsIdempotent(s: string)
    ensures Digits(Digits(s)) == Digits(s)
  {
    DigitsOfDigits(Digits(s));
  }

  /** `sub` occurs in `s` starting at position `i`. */
  predicate OccursAt(s: string, sub: string, i: int) {
    0 <= i <= |s| - |sub| && s[i..i + |sub|] == sub
  }

  /** `s.includes(sub)`: `sub` occurs as a contiguous substring of `s`. */
  predicate HasSubstring(s: string, sub: string) {
    exists i :: 0 <= i <= |s| && OccursAt(s, sub, i)
  }

  /** A string that contains `sub` contains every suffix of `sub`. */
  lemma SuffixSubstring(s: string, sub: string, k: int)
    requires HasSubstring(s, sub) && 0 <= k <= |sub|
    ensures HasSubstring(s, sub[k..])
  {
    var i :| 0 <= i <= |s| && OccursAt(s, sub, i);
    assert s[i + k..i + k + |sub[k..]|] == sub[k..];
    assert OccursAt(s, sub[k..], i + k);
  }
}

=== FILE: wrappers.dfy ===
/** Optional values and success-or-error results. */
module Wrappers {

  /** A value that may be missing (`null` in the program). */
  datatype Option<+T> = None | Some(value: T)

  /** Either a value or the error message shown instead of it. */
  datatype Result<+R, +E> = Success(value: R) | Failure(error: E)
}
